=== FILE: README.md ===
# gitlab-issues-from-file: the record-extraction core in Dafny

The tool reads a delimited-text (CSV) or JSON file and turns it into a list of
issues, each a title and an optional description, ready to be created in a
GitLab project. This project models the part of it that makes decisions:
`FileParser` in `src/issuefile.rs`. It also models the small pure part of
`src/gitlabapi.rs`: the request URL, the copy of a file issue into a project
issue, and the body of the issue-creation request. Every operation is a pure
function over immutable datatypes. Where the source updates the parser in
place, the updated parser is a separate function of the old one
(`CsvIssues.StoreResolved`). The properties the code promises are proved as
contracts and lemmas.

Modules (one file each):

- `Wrappers` (`wrappers.dfy`): `Option` and `Result`. `MapAll` is the
  all-or-nothing loop both formats use: one output per input in order, or the
  first error and nothing else.
- `Text` (`text.dfy`): lower-casing, Rust's `trim`, decimal rendering of
  integers (with its inverse) and joining strings.
- `Issues` (`issues.dfy`): `IssueFromFile` and its `Display`, and the
  `FileParser` settings with `FileParser::new`. It also holds the title prefix
  rule and the `"<name>: <value>\n\n"` fragment that both formats use.
- `CsvIssues` (`csv_issues.dfy`): `csv_to_issues`. It covers header-name
  resolution, the bounds checks, the record loop, combine mode, the
  description column and the title prefix.
- `JsonIssues` (`json_issues.dfy`): `json_to_issues` and
  `serde_object_to_issue`, on a closed JSON value type.
- `IssueFile` (`issue_file.dfy`): `get_issues`, which dispatches on the file
  extension, plus worked examples on small concrete files.
- `GitLabApi` (`gitlab_api.dfy`): `GitLabApiRequest::new`, the path
  normalisation of `get`/`post`, the issue path of `post_issue`,
  `GitLabProjectIssue::new` and `create_issue_body`.

How inputs are represented:

- **CSV.** A CSV file is the sequence of rows the csv reader tokenises, header
  line included. With a header, the first row names the columns. Without one,
  every row is a record. Either way, the first row's width is the width that
  indices are checked against and that every record must have. The reader
  rejects a record of another width, and the model reports that as
  `Could not read record`.
- **JSON.** A JSON document is a tree of `JString`, `JNumber` (kept as the
  text its `to_string` prints), `JBool`, `JNull`, `JArray` and `JObject`. An
  object is the sequence of its entries in iteration order.
- **Panics.** Where the source calls `unwrap` on something a caller must
  supply, the model has a precondition instead:
  - the separator must be set;
  - the title column must be given by index, or by name with a header, unless
    the description name fails to resolve first, since that error is returned
    before the title index is unwrapped (`CsvIssues.CsvConfigured`);
  - the JSON path needs a title key only when it converts an object: a root
    object, or a root array whose first element is an object
    (`JsonIssues.JsonConfigured`). An empty array, a non-object first element
    or a scalar root is answered without it;
  - a request path must be non-empty.

What the code does, stated where an informal reading of the options could
suggest otherwise:

- **Name over index.** A column name found in the header overrides an explicit
  index. A name that is not found falls back silently to the explicit index
  when there is one. Only without an index is it an error
  (`CsvIssues.ResolveByName`).
- **No header.** Without a header, names are never looked up. A title name
  given with no header is ignored, not rejected (`NoHeaderNeverResolvesNames`).
- **Combine mode and the description index.** In combine mode the description
  name is not looked up. An explicit description index is still bounds-checked
  and can fail the extraction, even though it is never used
  (`CombineSkipsDescriptionLookup`).
- **Resolved positions are stored.** `csv_to_issues` writes each column it
  finds by name back into the parser's explicit index (lines 95 and 127). It
  does this even when a later check fails. On the same file a second call
  gives the same result (`StoredParserRepeats`). On a file whose header no
  longer has the name, the stored index is used silently, where a fresh
  parser reports the missing column (`StoredIndexOutlivesHeader`). So a
  parser is not reusable across files as if it were new.
- **Dead error paths.** A missing title field and a missing description field
  at a set index are written as errors, not as an absent description. Both are
  unreachable: the reader has already made every record as wide as the first
  row, and both indices were checked against that width
  (`MissingFieldErrorsUnreachable`).
- **No prefix on JSON.** The JSON path never applies the title prefix
  (`JsonIgnoresOtherSettings`).
- **Empty combined descriptions.** In combine mode a CSV description is always
  present. It is `""` when the title is the only column. A JSON description is
  absent when no non-title entry exists.
- **First match versus last match.** For the CSV header the first matching
  column wins. For a JSON object the last matching key wins, for the title and
  for the description alike.
- **Nested JSON values.** Any nested array or object value fails the whole
  object with the message `Title is not a string`, whatever its key is.

## Model

| member | source | states |
|---|---|---|
| `Wrappers.MapAll` | src/issuefile.rs:155-210 | the record loop is all or nothing: it succeeds iff every element converts, then yields one result per element in order; otherwise it returns the error of the first failing element |
| `Text.TrimSpec` | src/issuefile.rs:186 | `trim` cuts only whitespace from either end and keeps a slice that neither starts nor ends with whitespace |
| `Text.TrimKeepsSolidEnds` | src/issuefile.rs:186 | `trim` leaves a string unchanged when neither its first nor its last character is whitespace, whatever lies between |
| `Text.TrimEmpty` | src/issuefile.rs:186 | a trimmed name is empty exactly when the name is all whitespace |
| `Text.DecimalRoundTrip` | src/issuefile.rs:180 | an integer's decimal rendering (`Column {}`, `to_string`) reads back as the same integer |
| `Text.ToLowerIdempotent` | src/issuefile.rs:46 | lower-casing is idempotent, so the stored extension is already lower case |
| `Issues.Display` | src/issuefile.rs:9-18 | the listing starts with `Title: '`, then the title verbatim, ends with `'`, and is 26 characters longer than the title and the description (absent read as empty) together |
| `Issues.DisplayHidesEmptyDescription` | src/issuefile.rs:9-18 | the listing prints a missing description exactly as an empty one |
| `Issues.DisplayDistinguishesDescriptions` | src/issuefile.rs:9-18 | for a fixed title, two listings are equal only if the descriptions (absent read as empty) are equal |
| `Issues.NewFileParser` | src/issuefile.rs:35-59 | the stored extension is the given one lower-cased, so case does not matter; every other setting is kept |
| `Issues.WithPrefixShape` | src/issuefile.rs:200-205 | the final title is the prefix, one space and the raw title, or the raw title verbatim when no prefix is set |
| `Issues.FragmentShape` | src/issuefile.rs:184-188 | a combine fragment is the trimmed name, `": "`, the value verbatim and a closing blank line |
| `CsvIssues.FindColumn` | src/issuefile.rs:89-95 | the header lookup finds a column iff some header equals the name ignoring case, and then it is the first such column |
| `CsvIssues.ResolveByName` | src/issuefile.rs:84-105 | a name found in the header wins over any explicit index; if the name is not found, the explicit index is used, and without one the result is the "Could not find column" error |
| `CsvIssues.ResolveLayout` | src/issuefile.rs:75-152 | resolution succeeds iff the title resolves, the description resolves, and both indices are below the first row's width; errors come in source order: the title name, then the description name (returned unchanged, even when no title index is known), then the title bound, then the description bound; a success carries both resolved indices and one label per column |
| `CsvIssues.LayoutErrors` | src/issuefile.rs:96-151 | a failed resolution reports a missing title or description column, or one of the two out-of-bounds errors, and nothing else |
| `CsvIssues.ConfigurationErrorsPrecedeRecords` | src/issuefile.rs:142-157 | a resolution or bounds error is the result whatever the records contain, because no record is read before the checks |
| `CsvIssues.NoHeaderNeverResolvesNames` | src/issuefile.rs:77-105 | without a header the explicit indices are used as given and "column not found" cannot occur |
| `CsvIssues.CombineSkipsDescriptionLookup` | src/issuefile.rs:106-152 | in combine mode the description name is not looked up, yet an explicit description index beyond the width still fails the extraction |
| `CsvIssues.ColumnLabels` | src/issuefile.rs:179-182 | there is one label for each column of the first row: the header itself when there is a header, and `Column <i>` (i counted from zero) when there is none |
| `CsvIssues.NumberedFragment` | src/issuefile.rs:179-188 | a header-less label survives the `trim` of its fragment whole, so the fragment is `Column <i>: <value>` and a blank line |
| `CsvIssues.CombinedDescriptionNoHeader` | src/issuefile.rs:172-190 | without a header, the combined description joins `Column <c>: <field>\n\n` for every column c other than the title's, in column order |
| `CsvIssues.RemainingColumns` | src/issuefile.rs:175-183 | of the first n columns, combine mode keeps all but the title's: n - 1 when the title column is among them, n otherwise |
| `CsvIssues.RemainingColumnsContent` | src/issuefile.rs:175-183 | combine mode visits every column except the title's, in column order, pairing each field with its label |
| `CsvIssues.CombinedDescriptionSpec` | src/issuefile.rs:172-190 | the combined description joins one fragment per non-title column, in column order |
| `CsvIssues.CombinedDescriptionOfTitleOnly` | src/issuefile.rs:174-190 | a record with only the title column gets the present, empty description |
| `CsvIssues.StoreResolved` | src/issuefile.rs:84-136 | after the call, the explicit title index holds the resolved title position whenever the title resolved, and the description index holds the resolved description position whenever both resolved, including when a bounds check then fails; a failed lookup leaves its index as it was; no other setting changes |
| `CsvIssues.StoredParserRepeats` | src/issuefile.rs:84-136 | with the stored positions, the same rows resolve to the same layout and give the same result, and storing again changes nothing |
| `CsvIssues.ReadRecord` | src/issuefile.rs:157-164 | the reader accepts a decoded record iff it is as wide as the first row; otherwise "Could not read record" |
| `CsvIssues.RecordToIssueSucceeds` | src/issuefile.rs:165-206 | an accepted record always converts: prefixed title from the title column; description combined, from the description column, or absent |
| `CsvIssues.ConvertRowOutcome` | src/issuefile.rs:157-169 | one loop step fails exactly on a record of the wrong width, and only with "Could not read record" |
| `CsvIssues.CsvToIssues` | src/issuefile.rs:67-211 | a resolution error is returned as is; a success has one issue per data record |
| `CsvIssues.CsvOutcome` | src/issuefile.rs:155-210 | extraction succeeds iff resolution succeeds and every record has the first row's width; it then gives one issue per record in order, and otherwise returns no issues at all |
| `CsvIssues.CsvIssueFields` | src/issuefile.rs:165-206 | each extracted issue has the prefixed title field and the description chosen by the mode in force |
| `CsvIssues.MissingFieldErrorsUnreachable` | src/issuefile.rs:165-197 | the "Could not get title" and "Could not get description" errors never occur |
| `JsonIssues.ObjectToIssue` | src/issuefile.rs:255-301 | an object converts iff none of its values is nested; its only failure is "Title is not a string" |
| `JsonIssues.Stringify` | src/issuefile.rs:266-272 | strings, booleans, numbers and null have a text (null is `"null"`); nested arrays and objects have none |
| `JsonIssues.ObjectFailsOnNested` | src/issuefile.rs:265-272 | converting an object fails iff some value is nested, under any key, always with "Title is not a string" |
| `JsonIssues.TitleIsLastMatch` | src/issuefile.rs:260-275 | the title is the value of the last key equal to the title key ignoring case, or empty if none matches |
| `JsonIssues.NonTitleEntries` | src/issuefile.rs:276-280 | the entries kept for combine mode are exactly the object's entries whose key is not the title key: each kept one is such an entry and each such entry is kept; none is kept iff every key is a title key |
| `JsonIssues.CombinePieces` | src/issuefile.rs:276-280 | in combine mode the pieces are one fragment per non-title entry, in entry order |
| `JsonIssues.PiecesAreFragments` | src/issuefile.rs:276-280 | in combine mode the collected pieces are exactly the fragments of the non-title entries, and none of those values is nested |
| `JsonIssues.CombineDescription` | src/issuefile.rs:276-300 | in combine mode the description is absent iff every key is a title key, and otherwise joins the fragments of the other entries |
| `JsonIssues.DescriptionIsLastMatch` | src/issuefile.rs:281-290 | outside combine mode the last entry matching the description key replaces the accumulator; no match leaves it empty |
| `JsonIssues.SingleDescription` | src/issuefile.rs:281-301 | outside combine mode the description is the last matching value, even an empty one, and absent if no key matches |
| `JsonIssues.JsonToIssues` | src/issuefile.rs:226-253 | a root array gives one issue per element in order iff every element is an object that converts; a root object gives exactly one issue; any other root is "not of a format that can be parsed" |
| `JsonIssues.NonObjectItemRejected` | src/issuefile.rs:227-239 | the first non-object element, after elements that convert, makes the document unparsable |
| `JsonIssues.JsonIgnoresOtherSettings` | src/issuefile.rs:255-301 | the JSON path reads only the title key, the description key and the combine flag; in particular the title prefix is never applied |
| `IssueFile.GetIssues` | src/issuefile.rs:60-66 | only the `csv` and `json` extensions can succeed, any other is "Unsupported file type", and a CSV success has one issue per data record |
| `IssueFile.RepeatedGetIssues` | src/issuefile.rs:60-66 | a second `get_issues` on the same contents, with the parser the first call left, gives the same result and leaves the parser as it is |
| `IssueFile.JsonFileToIssues` | src/issuefile.rs:216-223 | a file that cannot be read or parsed fails with the reader's or parser's message |
| `IssueFile.Dispatch` | src/issuefile.rs:60-66 | an extension equal to `csv` ignoring case selects the CSV path, `json` the JSON path, and anything else is "Unsupported file type" |
| `IssueFile.UpperCaseExtension` | src/issuefile.rs:46 | a `.CSV` file is read as CSV |
| `IssueFile.HeaderMatchIgnoresCase` | src/issuefile.rs:89-95 | header `Title` matches key `title` |
| `IssueFile.FirstHeaderMatchWins` | src/issuefile.rs:89-95 | with two `Title` headers the first is chosen |
| `IssueFile.CsvByNames` | src/issuefile.rs:84-206 | a header `title,description` and one record give that record's title and description |
| `IssueFile.CsvCombined` | src/issuefile.rs:172-190 | record `7,Crash,alice` under `id,title,owner` gives description `id: 7\n\nowner: alice\n\n` |
| `IssueFile.CombinedSkipsMiddle` | src/issuefile.rs:172-190 | for any three-column record whose title is the middle column, the description is the first column's fragment followed by the last column's |
| `IssueFile.CombinedExample` | src/issuefile.rs:175-189 | the combined description of that record, fragment by fragment |
| `IssueFile.CsvCombinedNoHeader` | src/issuefile.rs:172-190 | without a header, title index 1 and record `7,Crash,alice` give description `Column 0: 7\n\nColumn 2: alice\n\n` |
| `IssueFile.NumberedSkipsMiddle` | src/issuefile.rs:175-189 | for any three-column record whose title is the middle column, the header-less description is column 0's fragment followed by column 2's |
| `IssueFile.StoredIndexOutlivesHeader` | src/issuefile.rs:90-104 | after header `id,title` the parser stores title index 1; on a file with header `a,b` a fresh parser fails with "Could not find column", while the used one takes column 1 |
| `IssueFile.CsvPrefixed` | src/issuefile.rs:200-205 | prefix `TODO:` and title `Fix bug` give `TODO: Fix bug` |
| `IssueFile.CsvShortRecord` | src/issuefile.rs:157-164 | a short record after a good one aborts with no issues |
| `IssueFile.CsvIndexOutOfBounds` | src/issuefile.rs:144-146 | a title index past the header fails before the short record is read |
| `IssueFile.JsonObjects` | src/issuefile.rs:226-246 | one object gives one issue; an array of two objects gives two issues in order |
| `GitLabApi.NewApiRequest` | src/gitlabapi.rs:59-63 | the API root is the instance URL followed by `/api/v4` |
| `GitLabApi.RequestUrl` | src/gitlabapi.rs:65-73 | a request URL is the API root, one `/`, then the path without one leading `/` |
| `GitLabApi.LeadingSlashIgnored` | src/gitlabapi.rs:94-99 | a path with or without a leading `/` reaches the same URL |
| `GitLabApi.OnlyOneSlashRemoved` | src/gitlabapi.rs:68-73 | exactly one leading `/` is stripped and the rest of the path is kept |
| `GitLabApi.IssuesUrl` | src/gitlabapi.rs:237-240 | issues are posted to `<url>/api/v4/projects/<id>/issues`, and the id reads back from that URL |
| `GitLabApi.NewProjectIssue` | src/gitlabapi.rs:262-276 | title and description are copied unchanged from the file issue; project, labels, assignee and id are kept as given |
| `GitLabApi.CreateIssueBody` | src/gitlabapi.rs:277-291 | the body never fails; it always has `id` and `title`; `description`, `labels` and `assignee_id` (in decimal) are present iff set; no other key appears |
| `GitLabApi.BodyOfFileIssue` | src/gitlabapi.rs:262-290 | the body of a file issue carries its title, and its description iff it has one; the assignee number reads back from the body |

## Left out

- `src/main.rs`: argument parsing, environment variables, file-existence checks and exits. None of it is part of extraction.
- All HTTP in `src/gitlabapi.rs`: sending requests, status checks, and the JSON handling in `get_projects`, `get_members_of_project`, `get_labels_of_project` and `get_projects_with_members_and_labels`. These are network I/O over libraries the model cannot see. The token header and the client are left out of `GitLabApiRequest::new` for the same reason.
- The `Display` implementations of projects, members and labels: they are used only for console output.
- UUID generation: it is random. The id is a parameter, represented by the text it renders to.
- CSV tokenising (quoting, the delimiter byte) and opening the file: these belong to the csv library. The separator matters only through its `unwrap`. The "Could not read headers" error, which only a decoding failure raises, is not modelled. For the same reason a data record that is not valid UTF-8, which the reader also reports as "Could not read record", cannot be expressed: rows are already-decoded strings, so `CsvIssues.ReadRecord` rejects a record only for its width.
- File reading and JSON parsing: these belong to the JSON library. Their outcome is an input (`IssueFile.JsonReading`), and its two failure messages are modelled.
- Panics from `unwrap` are preconditions:
  - the missing file extension (`src/issuefile.rs:46`);
  - the separator (`src/issuefile.rs:72`);
  - the title index (`src/issuefile.rs:144`), which is reached unless the description name failed to resolve;
  - the JSON title key (`src/issuefile.rs:262`), which is reached only when an object is converted;
  - an empty request path (`src/gitlabapi.rs:68`, `94`).
- `JsonIssues.Json`: object entries are taken in any order. The JSON library as configured iterates keys sorted and unique; that ordering is not modelled.
- `Text.ToLower`: maps only the ASCII letters. Rust's `to_lowercase` also lower-cases other Unicode letters, so two non-ASCII names that Rust would match may not match here.
- Logging: it has no effect on results.
- Integer widths: column indices (`usize`) are only compared, so they are unbounded naturals. Project and assignee ids are limited to `u64`.

=== FILE: csv_issues.dfy ===
/** The delimited-text path of `FileParser` (`csv_to_issues`).

    The file arrives already tokenised: `rows` is every record the csv reader
    would yield, the header line included. With a header the first row names
    the columns; without one every row is a record. The reader's own rule that
    every record has as many fields as the first row is modelled by
    `ReadRecord`. */
module CsvIssues {
  import opened Wrappers
  import opened Text
  import opened Issues

  type Row = seq<string>

  const TitleOutOfBounds := "title_column_index is out of bounds"
  const DescriptionOutOfBounds := "description_column_index is out of bounds"
  const UnreadableRecord := "Could not read record"
  const MissingTitle := "Could not get title"
  const MissingDescription := "Could not get description"

  function ColumnNotFound(name: string): string {
    "Could not find column with name '" + name + "'"
  }

  /** The title column can be resolved: it is given by index, or by a name
      that is looked up in a header. */
  predicate TitleKnown(p: FileParser) {
    p.titleColumnIndex.Some? || (!p.noHeader && p.titleKey.Some?)
  }

  /** The inputs on which this path does not panic: the separator is
      unwrapped when the reader is built, and the title index is unwrapped
      at the bounds check, which a failed description lookup returns before. */
  predicate CsvConfigured(p: FileParser, rows: seq<Row>) {
    && p.separator.Some?
    && (TitleKnown(p) || ResolveDescription(p, rows).Err?)
  }

  /** What `reader.headers()` returns: the first row, or nothing for an empty
      file. Without a header it is the first record, which is not consumed. */
  function FirstRow(rows: seq<Row>): Row {
    if |rows| == 0 then [] else rows[0]
  }

  /** The width every record is checked against. */
  function Width(rows: seq<Row>): nat {
    |FirstRow(rows)|
  }

  /** The rows the record loop visits. */
  function DataRecords(p: FileParser, rows: seq<Row>): seq<Row> {
    if p.noHeader then rows
    else if |rows| == 0 then []
    else rows[1..]
  }

  predicate HasColumn(headers: Row, name: string) {
    exists i :: 0 <= i < |headers| && EqualsIgnoreCase(headers[i], name)
  }

  /** `i` is the first header position matching `name` in any case. */
  predicate IsFirstMatch(headers: Row, name: string, i: nat) {
    && i < |headers|
    && EqualsIgnoreCase(headers[i], name)
    && forall j :: 0 <= j < i ==> !EqualsIgnoreCase(headers[j], name)
  }

  /** `headers.iter().position(...)`: the first column whose lower-cased
      header equals the lower-cased name, if any. */
  function FindColumn(headers: Row, name: string): (r: Option<nat>)
    ensures r.Some? <==> HasColumn(headers, name)
    ensures r.Some? ==> IsFirstMatch(headers, name, r.value)
    decreases |headers|
  {
    if |headers| == 0 then None
    else if EqualsIgnoreCase(headers[0], name) then Some(0)
    else
      match FindColumn(headers[1..], name)
      case Some(i) => Some(i + 1)
      case None => None
  }

  /** A column requested by name: a name found in the header decides, even
      over an explicit index; a name not found falls back to the explicit
      index when there is one, and is an error otherwise. */
  function ResolveByName(headers: Row, name: string, explicit: Option<nat>): (r: Result<nat>)
    ensures HasColumn(headers, name) ==> r.Ok? && IsFirstMatch(headers, name, r.value)
    ensures !HasColumn(headers, name) && explicit.Some? ==> r == Ok(explicit.value)
    ensures !HasColumn(headers, name) && explicit.None? ==> r == Err(ColumnNotFound(name))
  {
    match FindColumn(headers, name)
    case Some(i) => Ok(i)
    case None =>
      if explicit.Some? then Ok(explicit.value) else Err(ColumnNotFound(name))
  }

  /** The title column: looked up by name only when there is a header and a
      name; otherwise the explicit index. */
  function ResolveTitle(p: FileParser, rows: seq<Row>): Result<nat>
    requires TitleKnown(p)
  {
    if !p.noHeader && p.titleKey.Some? then ResolveByName(FirstRow(rows), p.titleKey.value, p.titleColumnIndex)
    else Ok(p.titleColumnIndex.value)
  }

  /** The description column: looked up by name only when there is a header,
      a name, and combine mode is off; otherwise the explicit index, if any. */
  function ResolveDescription(p: FileParser, rows: seq<Row>): Result<Option<nat>> {
    if !p.noHeader && p.descriptionKey.Some? && !p.combineRemaining then
      var d :- ResolveByName(FirstRow(rows), p.descriptionKey.value, p.descriptionColumnIndex);
      Ok(Some(d))
    else Ok(p.descriptionColumnIndex)
  }

  /** The resolved columns, and one label per column for combine mode: the
      header's names, or `"Column <i>"` when the file has no header. */
  datatype Layout = Layout(title: nat, description: Option<nat>, labels: seq<string>) {
    predicate Valid() {
      && title < |labels|
      && (description.Some? ==> description.value < |labels|)
    }
  }

  function ColumnLabels(p: FileParser, rows: seq<Row>): (r: seq<string>)
    ensures |r| == Width(rows)
    ensures !p.noHeader ==> r == FirstRow(rows)
    ensures p.noHeader ==> forall i :: 0 <= i < |r| ==> r[i] == "Column " + Decimal(i)
  {
    if p.noHeader then seq(Width(rows), i requires 0 <= i => "Column " + Decimal(i))
    else FirstRow(rows)
  }

  /** Everything decided before the first record is read: name resolution for
      the title, then for the description, then the bounds checks of both
      indices against the width of the first row. It succeeds exactly when
      both resolve and both indices are in bounds. */
  function ResolveLayout(p: FileParser, rows: seq<Row>): (r: Result<Layout>)
    requires CsvConfigured(p, rows)
    ensures r.Ok? <==>
      && TitleKnown(p)
      && ResolveTitle(p, rows).Ok?
      && ResolveDescription(p, rows).Ok?
      && ResolveTitle(p, rows).value < Width(rows)
      && (ResolveDescription(p, rows).value.Some? ==> ResolveDescription(p, rows).value.value < Width(rows))
    ensures r.Ok? ==> r.value.Valid() && r.value.labels == ColumnLabels(p, rows)
    ensures r.Ok? ==> TitleKnown(p) && ResolveTitle(p, rows) == Ok(r.value.title)
    ensures r.Ok? ==> ResolveDescription(p, rows) == Ok(r.value.description)
    ensures !TitleKnown(p) ==> r == Err(ResolveDescription(p, rows).error)
    ensures TitleKnown(p) && ResolveTitle(p, rows).Err? ==> r == Err(ResolveTitle(p, rows).error)
    ensures TitleKnown(p) && ResolveTitle(p, rows).Ok? && ResolveDescription(p, rows).Err? ==>
              r == Err(ResolveDescription(p, rows).error)
    ensures (TitleKnown(p) && ResolveTitle(p, rows).Ok? && ResolveTitle(p, rows).value >= Width(rows)
             && ResolveDescription(p, rows).Ok?) ==> r == Err(TitleOutOfBounds)
    ensures (ResolveDescription(p, rows).Ok? && ResolveDescription(p, rows).value.Some? &&
             ResolveDescription(p, rows).value.value >= Width(rows)
             && TitleKnown(p) && ResolveTitle(p, rows).Ok? && ResolveTitle(p, rows).value < Width(rows))
            ==> r == Err(DescriptionOutOfBounds)
  {
    if !TitleKnown(p) then
      // No title column to look up: the description lookup has failed, and
      // its error is returned before the title index would be unwrapped.
      Err(ResolveDescription(p, rows).error)
    else
      var title :- ResolveTitle(p, rows);
      var description :- ResolveDescription(p, rows);
      if title >= Width(rows) then Err(TitleOutOfBounds)
      else if description.Some? && description.value >= Width(rows) then Err(DescriptionOutOfBounds)
      else Ok(Layout(title, description, ColumnLabels(p, rows)))
  }

  /** Position in the record of the `k`-th field of a combined description:
      the title column is passed over. */
  function SkipColumn(k: nat, skip: nat): nat {
    if k < skip then k else k + 1
  }

  /** The columns a combined description is built from: every (label, field)
      pair except the title's, in column order. */
  function RemainingColumns(labels: seq<string>, fields: Row, skip: nat, n: nat): (r: seq<(string, string)>)
    requires n <= |fields| == |labels|
    ensures skip < n ==> |r| == n - 1
    ensures skip >= n ==> |r| == n
    decreases n
  {
    if n == 0 then []
    else
      var front := RemainingColumns(labels, fields, skip, n - 1);
      if n - 1 == skip then front
      else front + [(labels[n - 1], fields[n - 1])]
  }

  /** The `k`-th remaining column is the `k`-th column of the record once the
      title's has been passed over. */
  lemma {:induction false} RemainingColumnsContent(labels: seq<string>, fields: Row, skip: nat, n: nat)
    requires n <= |fields| == |labels|
    ensures var r := RemainingColumns(labels, fields, skip, n);
      forall k :: 0 <= k < |r| ==>
        SkipColumn(k, skip) < n &&
        r[k] == (labels[SkipColumn(k, skip)], fields[SkipColumn(k, skip)])
    decreases n
  {
    if n > 0 {
      RemainingColumnsContent(labels, fields, skip, n - 1);
      var front := RemainingColumns(labels, fields, skip, n - 1);
      var r := RemainingColumns(labels, fields, skip, n);
      forall k | 0 <= k < |r|
        ensures SkipColumn(k, skip) < n
        ensures r[k] == (labels[SkipColumn(k, skip)], fields[SkipColumn(k, skip)])
      {
        if k < |front| {
          assert r[k] == front[k];
        } else {
          assert SkipColumn(k, skip) == n - 1;
        }
      }
    }
  }

  /** The description of combine mode: one fragment per remaining column,
      joined. */
  function CombinedDescription(labels: seq<string>, record: Row, skip: nat): string
    requires |labels| == |record|
  {
    var columns := RemainingColumns(labels, record, skip, |record|);
    Concat(seq(|columns|, k requires 0 <= k < |columns| => Fragment(columns[k].0, columns[k].1)))
  }

  /** The csv reader's check: a record must be as wide as the first row. */
  function ReadRecord(width: nat, row: Row): (r: Result<Row>)
    ensures r.Ok? <==> |row| == width
    ensures r.Ok? ==> r.value == row
    ensures r.Err? ==> r.error == UnreadableRecord
  {
    if |row| == width then Ok(row) else Err(UnreadableRecord)
  }

  /** One record turned into an issue, following the source branch by branch,
      including the checks for missing fields. */
  function RecordToIssue(p: FileParser, layout: Layout, record: Row): Result<IssueFromFile>
    requires layout.Valid() && |record| == |layout.labels|
  {
    var title :-
      if layout.title < |record| then Ok(record[layout.title]) else Err(MissingTitle);
    var description :-
      if p.combineRemaining then
        Ok(Some(CombinedDescription(layout.labels, record, layout.title)))
      else if layout.description.Some? then
        if layout.description.value < |record| then Ok(Some(record[layout.description.value]))
        else Err(MissingDescription)
      else Ok(None);
    Ok(IssueFromFile(WithPrefix(p.prependTitle, title), description))
  }

  /** One iteration of the record loop: read, then convert. */
  function ConvertRow(p: FileParser, layout: Layout, row: Row): Result<IssueFromFile>
    requires layout.Valid()
  {
    var record :- ReadRecord(|layout.labels|, row);
    RecordToIssue(p, layout, record)
  }

  /** `csv_to_issues`. */
  function CsvToIssues(p: FileParser, rows: seq<Row>): (r: Result<seq<IssueFromFile>>)
    requires CsvConfigured(p, rows)
    ensures ResolveLayout(p, rows).Err? ==> r == Err(ResolveLayout(p, rows).error)
    ensures r.Ok? ==> |r.value| == |DataRecords(p, rows)|
  {
    var layout :- ResolveLayout(p, rows);
    MapAll(DataRecords(p, rows), row => ConvertRow(p, layout, row))
  }

  /** The parser as `csv_to_issues` leaves it. The call takes the parser
      mutably and writes every position it finds by name back into the
      explicit index settings: the title's as soon as it is found, the
      description's as soon as it is found, whatever fails afterwards. A
      later call falls back to these stored positions when the name is not
      found. */
  function StoreResolved(p: FileParser, rows: seq<Row>): (q: FileParser)
    requires CsvConfigured(p, rows)
    ensures q.(titleColumnIndex := p.titleColumnIndex, descriptionColumnIndex := p.descriptionColumnIndex) == p
    ensures TitleKnown(q) == TitleKnown(p)
    ensures TitleKnown(p) && ResolveTitle(p, rows).Ok? ==> q.titleColumnIndex == Some(ResolveTitle(p, rows).value)
    ensures !TitleKnown(p) || ResolveTitle(p, rows).Err? ==> q.titleColumnIndex == p.titleColumnIndex
    ensures TitleKnown(p) && ResolveTitle(p, rows).Ok? && ResolveDescription(p, rows).Ok? ==>
              q.descriptionColumnIndex == ResolveDescription(p, rows).value
    ensures ResolveDescription(p, rows).Err? ==> q.descriptionColumnIndex == p.descriptionColumnIndex
    ensures ResolveLayout(p, rows).Ok? ==>
              q.titleColumnIndex == Some(ResolveLayout(p, rows).value.title) &&
              q.descriptionColumnIndex == ResolveLayout(p, rows).value.description
  {
    var headers := FirstRow(rows);
    var title :=
      if !p.noHeader && p.titleKey.Some? && FindColumn(headers, p.titleKey.value).Some?
      then FindColumn(headers, p.titleKey.value) else p.titleColumnIndex;
    var titleMissing := !p.noHeader && p.titleKey.Some? && title.None?;
    var description :=
      if !p.noHeader && !titleMissing && p.descriptionKey.Some? && !p.combineRemaining
         && FindColumn(headers, p.descriptionKey.value).Some?
      then FindColumn(headers, p.descriptionKey.value) else p.descriptionColumnIndex;
    p.(titleColumnIndex := title, descriptionColumnIndex := description)
  }

  /** On the same file, the stored positions resolve to the same layout: a
      second call gives the same result and stores nothing new. */
  lemma StoredParserRepeats(p: FileParser, rows: seq<Row>)
    requires CsvConfigured(p, rows)
    ensures var q := StoreResolved(p, rows);
      && CsvConfigured(q, rows)
      && ResolveLayout(q, rows) == ResolveLayout(p, rows)
      && CsvToIssues(q, rows) == CsvToIssues(p, rows)
      && StoreResolved(q, rows) == q
  {
    var q := StoreResolved(p, rows);
    assert ResolveDescription(q, rows) == ResolveDescription(p, rows);
    if TitleKnown(p) {
      assert ResolveTitle(q, rows) == ResolveTitle(p, rows);
    }
    assert ResolveLayout(q, rows) == ResolveLayout(p, rows);
    if ResolveLayout(p, rows).Ok? {
      var layout := ResolveLayout(p, rows).value;
      var records := DataRecords(p, rows);
      assert DataRecords(q, rows) == records;
      forall i | 0 <= i < |records|
        ensures ConvertRow(q, layout, records[i]) == ConvertRow(p, layout, records[i])
      {
      }
      MapAllCongruent(records, row => ConvertRow(q, layout, row), row => ConvertRow(p, layout, row));
    }
  }

  /** Once the reader has accepted a record, converting it cannot fail: the
      layout's indices are below the width every record has, so the checks
      for a missing title or description field never fire. */
  lemma RecordToIssueSucceeds(p: FileParser, layout: Layout, record: Row)
    requires layout.Valid() && |record| == |layout.labels|
    ensures RecordToIssue(p, layout, record).Ok?
    ensures RecordToIssue(p, layout, record).value.title == WithPrefix(p.prependTitle, record[layout.title])
    ensures RecordToIssue(p, layout, record).value.description ==
      if p.combineRemaining then Some(CombinedDescription(layout.labels, record, layout.title))
      else if layout.description.Some? then Some(record[layout.description.value])
      else None
  {
  }

  /** One step of the record loop fails exactly on a record of the wrong width. */
  lemma ConvertRowOutcome(p: FileParser, layout: Layout, row: Row)
    requires layout.Valid()
    ensures ConvertRow(p, layout, row).Ok? <==> |row| == |layout.labels|
    ensures ConvertRow(p, layout, row).Err? ==> ConvertRow(p, layout, row).error == UnreadableRecord
  {
    if |row| == |layout.labels| {
      RecordToIssueSucceeds(p, layout, row);
    }
  }

  /** All or nothing: the extraction succeeds exactly when the columns resolve
      and every record is as wide as the first row; then there is one issue
      per record, in order, each taken from its record's fields. Otherwise the
      first failure is reported and no issue is returned. */
  lemma {:induction false} CsvOutcome(p: FileParser, rows: seq<Row>)
    requires CsvConfigured(p, rows)
    ensures var r, records := CsvToIssues(p, rows), DataRecords(p, rows);
      && (r.Ok? <==> ResolveLayout(p, rows).Ok? &&
                     forall i :: 0 <= i < |records| ==> |records[i]| == Width(rows))
      && (ResolveLayout(p, rows).Ok? && r.Err? ==> r.error == UnreadableRecord)
      && (r.Ok? ==> |r.value| == |records|)
      && (r.Ok? ==> forall i :: 0 <= i < |records| ==>
            r.value[i] == RecordToIssue(p, ResolveLayout(p, rows).value, records[i]).value)
  {
    var records := DataRecords(p, rows);
    match ResolveLayout(p, rows)
    case Err(_) =>
    case Ok(layout) =>
      var f := row => ConvertRow(p, layout, row);
      forall i | 0 <= i < |records|
        ensures f(records[i]).Ok? <==> |records[i]| == Width(rows)
        ensures f(records[i]).Err? ==> f(records[i]).error == UnreadableRecord
      {
        ConvertRowOutcome(p, layout, records[i]);
      }
  }

  /** The issues of a successful extraction, field by field: the prefixed
      title from the title column, and the description from the description
      policy in force. */
  lemma CsvIssueFields(p: FileParser, rows: seq<Row>, i: nat)
    requires CsvConfigured(p, rows)
    requires CsvToIssues(p, rows).Ok? && i < |DataRecords(p, rows)|
    ensures var layout, record, issue := ResolveLayout(p, rows).value, DataRecords(p, rows)[i], CsvToIssues(p, rows).value[i];
      && |record| == Width(rows)
      && issue.title == WithPrefix(p.prependTitle, record[layout.title])
      && issue.description ==
           if p.combineRemaining then Some(CombinedDescription(layout.labels, record, layout.title))
           else if layout.description.Some? then Some(record[layout.description.value])
           else None
  {
    CsvOutcome(p, rows);
    var layout := ResolveLayout(p, rows).value;
    RecordToIssueSucceeds(p, layout, DataRecords(p, rows)[i]);
  }

  /** The checks for a missing title or description field are dead code:
      the extraction never ends with either error. */
  lemma MissingFieldErrorsUnreachable(p: FileParser, rows: seq<Row>)
    requires CsvConfigured(p, rows)
    ensures CsvToIssues(p, rows) != Err(MissingTitle)
    ensures CsvToIssues(p, rows) != Err(MissingDescription)
  {
    CsvOutcome(p, rows);
    if ResolveLayout(p, rows).Err? {
      LayoutErrors(p, rows);
    }
  }

  /** The messages a failed resolution can carry. */
  lemma LayoutErrors(p: FileParser, rows: seq<Row>)
    requires CsvConfigured(p, rows) && ResolveLayout(p, rows).Err?
    ensures var e := ResolveLayout(p, rows).error;
      || e == TitleOutOfBounds
      || e == DescriptionOutOfBounds
      || (!p.noHeader && p.titleKey.Some? && e == ColumnNotFound(p.titleKey.value))
      || (!p.noHeader && p.descriptionKey.Some? && e == ColumnNotFound(p.descriptionKey.value))
  {
  }

  /** Columns are resolved and bounds-checked before any record is read: a
      configuration error is the result whatever the records hold, because
      resolution sees only the first row. */
  lemma ConfigurationErrorsPrecedeRecords(p: FileParser, rows: seq<Row>, others: seq<Row>)
    requires CsvConfigured(p, rows)
    requires FirstRow(rows) == FirstRow(others)
    requires ResolveLayout(p, rows).Err?
    ensures CsvToIssues(p, others) == CsvToIssues(p, rows) == Err(ResolveLayout(p, rows).error)
  {
    assert ResolveLayout(p, others) == ResolveLayout(p, rows);
  }

  /** Without a header no column is ever looked up by name: the explicit
      indices are used as given and "column not found" cannot happen. */
  lemma NoHeaderNeverResolvesNames(p: FileParser, rows: seq<Row>, name: string)
    requires CsvConfigured(p, rows) && p.noHeader
    ensures p.titleColumnIndex.Some? && ResolveTitle(p, rows) == Ok(p.titleColumnIndex.value)
    ensures ResolveDescription(p, rows) == Ok(p.descriptionColumnIndex)
    ensures CsvToIssues(p, rows) != Err(ColumnNotFound(name))
  {
    var r := CsvToIssues(p, rows);
    if r.Err? {
      CsvOutcome(p, rows);
      var e := r.error;
      assert ColumnNotFound(name)[10] == 'f';
      assert e[10] != 'f';
    }
  }

  /** In combine mode the description name is never looked up; only an
      explicit description index remains, and it is still bounds-checked. */
  lemma CombineSkipsDescriptionLookup(p: FileParser, rows: seq<Row>)
    requires CsvConfigured(p, rows) && p.combineRemaining
    ensures ResolveDescription(p, rows) == Ok(p.descriptionColumnIndex)
    ensures TitleKnown(p)
    ensures ResolveTitle(p, rows).Ok? && ResolveTitle(p, rows).value < Width(rows) &&
            p.descriptionColumnIndex.Some? && p.descriptionColumnIndex.value >= Width(rows)
            ==> CsvToIssues(p, rows) == Err(DescriptionOutOfBounds)
  {
  }

  /** A record holding only the title column gets the empty description,
      which is present, not absent. */
  lemma CombinedDescriptionOfTitleOnly(labels: seq<string>, record: Row)
    requires |labels| == |record| == 1
    ensures CombinedDescription(labels, record, 0) == ""
  {
    assert RemainingColumns(labels, record, 0, 1) == [];
  }

  /** The combined description spelled out: the fragments of columns
      `0 .. |record| - 1` other than the title's, in column order, joined. */
  lemma CombinedDescriptionSpec(labels: seq<string>, record: Row, skip: nat)
    requires |labels| == |record| && skip < |record|
    ensures CombinedDescription(labels, record, skip) ==
      Concat(seq(|record| - 1, k requires 0 <= k < |record| - 1 =>
        Fragment(labels[SkipColumn(k, skip)], record[SkipColumn(k, skip)])))
  {
    RemainingColumnsContent(labels, record, skip, |record|);
    var columns := RemainingColumns(labels, record, skip, |record|);
    var pieces := seq(|columns|, k requires 0 <= k < |columns| => Fragment(columns[k].0, columns[k].1));
    var spelled := seq(|record| - 1, k requires 0 <= k < |record| - 1 =>
        Fragment(labels[SkipColumn(k, skip)], record[SkipColumn(k, skip)]));
    assert pieces == spelled;
  }

  /** A header-less label is kept whole in its fragment: it starts with `C`
      and ends with a digit, so trimming removes nothing. */
  lemma NumberedFragment(i: nat, value: string)
    ensures Fragment("Column " + Decimal(i), value) == "Column " + Decimal(i) + ": " + value + "\n\n"
  {
    var name := "Column " + Decimal(i);
    assert name[0] == 'C';
    assert name[|name| - 1] == Decimal(i)[|Decimal(i)| - 1];
    TrimKeepsSolidEnds(name);
  }

  /** With numbered labels, each fragment of the skip-title listing is
      spelled out with its column number. */
  lemma NumberedFragments(labels: seq<string>, record: Row, title: nat)
    requires |labels| == |record| && title < |record|
    requires forall i :: 0 <= i < |labels| ==> labels[i] == "Column " + Decimal(i)
    ensures seq(|record| - 1, k requires 0 <= k < |record| - 1 =>
              Fragment(labels[SkipColumn(k, title)], record[SkipColumn(k, title)])) ==
            seq(|record| - 1, k requires 0 <= k < |record| - 1 =>
              "Column " + Decimal(SkipColumn(k, title)) + ": " + record[SkipColumn(k, title)] + "\n\n")
  {
    forall k | 0 <= k < |record| - 1
      ensures Fragment(labels[SkipColumn(k, title)], record[SkipColumn(k, title)]) ==
              "Column " + Decimal(SkipColumn(k, title)) + ": " + record[SkipColumn(k, title)] + "\n\n"
    {
      NumberedFragment(SkipColumn(k, title), record[SkipColumn(k, title)]);
    }
  }

  /** Without a header, fragment k of a combined description is
      `"Column <c>: <field>\n\n"`, where c is the k-th column other than the
      title's, counted from zero. */
  lemma CombinedDescriptionNoHeader(p: FileParser, rows: seq<Row>, record: Row, title: nat)
    requires p.noHeader && |record| == Width(rows) && title < |record|
    ensures CombinedDescription(ColumnLabels(p, rows), record, title) ==
      Concat(seq(|record| - 1, k requires 0 <= k < |record| - 1 =>
        "Column " + Decimal(SkipColumn(k, title)) + ": " + record[SkipColumn(k, title)] + "\n\n"))
  {
    var labels := ColumnLabels(p, rows);
    CombinedDescriptionSpec(labels, record, title);
    NumberedFragments(labels, record, title);
  }
}

=== FILE: gitlab_api.dfy ===
/** The pure parts of the GitLab client: where requests go and what an
    issue-creation request carries. Sending requests is not modelled. */
module GitLabApi {
  import opened Wrappers
  import opened Text
  import opened Issues

  /** Rust's `u64`. */
  type U64 = n: nat | n < 0x1_0000_0000_0000_0000

  /** An issue's UUID, represented by the text its `to_string` produces; it is
      generated at random and is passed in here. */
  datatype Uuid = Uuid(text: string)

  /** The client keeps the API root; its token header and HTTP client are not
      modelled. */
  datatype GitLabApiRequest = GitLabApiRequest(baseUrl: string)

  const ApiSuffix := "/api/v4"

  /** `GitLabApiRequest::new`: the instance URL with the v4 API path after it. */
  function NewApiRequest(url: string): (r: GitLabApiRequest)
    ensures |r.baseUrl| == |url| + |ApiSuffix|
    ensures r.baseUrl[..|url|] == url
    ensures r.baseUrl[|url|..] == ApiSuffix
  {
    GitLabApiRequest(url + ApiSuffix)
  }

  /** The path with one leading `/` removed, if it has one. The source reads
      the first character with `unwrap`, so an empty path is not allowed. */
  function TrimLeadingSlash(path: string): string
    requires |path| > 0
  {
    if path[0] == '/' then path[1..] else path
  }

  /** The URL `get` and `post` send to: the API root, one `/`, and the path
      without its leading `/`. */
  function RequestUrl(request: GitLabApiRequest, path: string): (url: string)
    requires |path| > 0
    ensures |url| > |request.baseUrl|
    ensures url[..|request.baseUrl| + 1] == request.baseUrl + "/"
    ensures path[0] == '/' ==> "/" + url[|request.baseUrl| + 1..] == path
    ensures path[0] != '/' ==> url[|request.baseUrl| + 1..] == path
  {
    request.baseUrl + "/" + TrimLeadingSlash(path)
  }

  /** A leading `/` makes no difference to where a request goes ... */
  lemma LeadingSlashIgnored(request: GitLabApiRequest, path: string)
    requires |path| > 0 && path[0] != '/'
    ensures RequestUrl(request, "/" + path) == RequestUrl(request, path)
  {
    assert ("/" + path)[1..] == path;
  }

  /** ... but only one is removed: the rest of the path is kept as it is. */
  lemma OnlyOneSlashRemoved(request: GitLabApiRequest, path: string)
    requires |path| > 0
    ensures RequestUrl(request, "/" + path) == request.baseUrl + "/" + path
  {
    assert ("/" + path)[1..] == path;
  }

  /** The path `post_issue` posts to. */
  function IssuesPath(projectId: U64): string {
    "projects/" + Decimal(projectId) + "/issues"
  }

  /** An issue is posted to `<url>/api/v4/projects/<id>/issues`, and the
      project id can be read back from that URL. */
  lemma IssuesUrl(url: string, projectId: U64)
    ensures RequestUrl(NewApiRequest(url), IssuesPath(projectId))
            == url + "/api/v4/projects/" + Decimal(projectId) + "/issues"
    ensures var u := RequestUrl(NewApiRequest(url), IssuesPath(projectId));
            var digits := u[|url| + 17..|u| - 7];
            (forall i :: 0 <= i < |digits| ==> IsDigit(digits[i])) && DecimalValue(digits) == projectId
  {
    var path := IssuesPath(projectId);
    assert path[0] == 'p';
    var u := RequestUrl(NewApiRequest(url), path);
    assert TrimLeadingSlash(path) == path;
    assert u == url + "/api/v4" + "/" + path;
    assert u == url + "/api/v4/projects/" + Decimal(projectId) + "/issues";
    assert u[|url| + 17..|u| - 7] == Decimal(projectId);
    DecimalRoundTrip(projectId);
  }

  /** `GitLabProjectIssue`: an issue from the file, addressed to a project,
      with optional labels (a comma-separated list) and assignee. */
  datatype GitLabProjectIssue = GitLabProjectIssue(
    id: Uuid,
    projectId: U64,
    title: string,
    description: Option<string>,
    labels: Option<string>,
    assigneeId: Option<U64>)

  /** `GitLabProjectIssue::new`: the file's title and description are copied
      unchanged; labels and assignee are taken as given. */
  function NewProjectIssue(id: Uuid, projectId: U64, issue: IssueFromFile,
                           labels: Option<string>, assigneeId: Option<U64>): (r: GitLabProjectIssue)
    ensures IssueFromFile(r.title, r.description) == issue
    ensures r.projectId == projectId && r.labels == labels && r.assigneeId == assigneeId
    ensures r.id == id
  {
    GitLabProjectIssue(id, projectId, issue.title, issue.description, labels, assigneeId)
  }

  function KeysIf(present: bool, key: string): set<string> {
    if present then {key} else {}
  }

  /** `create_issue_body`: always succeeds; `id` and `title` are always
      present, each optional field is present exactly when it is set, with
      its value (the assignee as a decimal number), and nothing else is. */
  function CreateIssueBody(issue: GitLabProjectIssue): (r: Result<map<string, string>>)
    ensures r.Ok?
    ensures r.value.Keys == {"id", "title"}
                            + KeysIf(issue.description.Some?, "description")
                            + KeysIf(issue.labels.Some?, "labels")
                            + KeysIf(issue.assigneeId.Some?, "assignee_id")
    ensures r.value["id"] == issue.id.text
    ensures r.value["title"] == issue.title
    ensures issue.description.Some? ==> r.value["description"] == issue.description.value
    ensures issue.labels.Some? ==> r.value["labels"] == issue.labels.value
    ensures issue.assigneeId.Some? ==> r.value["assignee_id"] == Decimal(issue.assigneeId.value)
  {
    var body := map["id" := issue.id.text, "title" := issue.title];
    var body := if issue.description.Some? then body["description" := issue.description.value] else body;
    var body := if issue.labels.Some? then body["labels" := issue.labels.value] else body;
    var body := if issue.assigneeId.Some? then body["assignee_id" := Decimal(issue.assigneeId.value)] else body;
    Ok(body)
  }

  /** From file to request body: the body of an issue read from a file
      carries that issue's title, and its description exactly when it has
      one; the assignee reads back as the number given. */
  lemma BodyOfFileIssue(id: Uuid, projectId: U64, issue: IssueFromFile,
                        labels: Option<string>, assigneeId: Option<U64>)
    ensures var body := CreateIssueBody(NewProjectIssue(id, projectId, issue, labels, assigneeId)).value;
      && body["title"] == issue.title
      && ("description" in body <==> issue.description.Some?)
      && (issue.description.Some? ==> body["description"] == issue.description.value)
      && ("labels" in body <==> labels.Some?)
      && ("assignee_id" in body <==> assigneeId.Some?)
      && (assigneeId.Some? ==>
            (forall i :: 0 <= i < |body["assignee_id"]| ==> IsDigit(body["assignee_id"][i])) &&
            DecimalValue(body["assignee_id"]) == assigneeId.value)
  {
    if assigneeId.Some? {
      DecimalRoundTrip(assigneeId.value);
    }
  }
}

=== FILE: issue_file.dfy ===
/** `FileParser::get_issues`: the choice between the two input formats, and
    the end-to-end behaviour on small concrete files. */
module IssueFile {
  import opened Wrappers
  import opened Text
  import opened Issues
  import opened CsvIssues
  import opened JsonIssues

  const UnsupportedFileType := "Unsupported file type"

  /** What reading the file and parsing it as JSON produced. */
  datatype JsonReading = Parsed(doc: Json) | ReadFailed(reason: string) | ParseFailed(reason: string)

  /** The file's contents as each of the two readers sees them: the rows the
      csv reader tokenises, and the outcome of reading and parsing it as JSON.
      Only the one the extension selects is looked at. */
  datatype FileContents = FileContents(rows: seq<Row>, json: JsonReading)

  /** The JSON path does not panic on this reading: a document that is read
      and parsed never makes the loop convert an object without a title key. */
  predicate JsonReadingConfigured(p: FileParser, reading: JsonReading) {
    reading.Parsed? ==> JsonConfigured(p, reading.doc)
  }

  /** The settings and contents on which `get_issues` does not panic. */
  predicate Configured(p: FileParser, contents: FileContents) {
    && (p.fileExtension == "csv" ==> CsvConfigured(p, contents.rows))
    && (p.fileExtension == "json" ==> JsonReadingConfigured(p, contents.json))
  }

  /** The JSON path including its two ways of failing before a document exists. */
  function JsonFileToIssues(p: FileParser, reading: JsonReading): (r: Result<seq<IssueFromFile>>)
    requires JsonReadingConfigured(p, reading)
    ensures reading.ReadFailed? ==> r == Err("Could not read file: " + reading.reason)
    ensures reading.ParseFailed? ==> r == Err("Could not parse json: " + reading.reason)
  {
    match reading
    case ReadFailed(reason) => Err("Could not read file: " + reason)
    case ParseFailed(reason) => Err("Could not parse json: " + reason)
    case Parsed(doc) => JsonToIssues(p, doc)
  }

  function GetIssues(p: FileParser, contents: FileContents): (r: Result<seq<IssueFromFile>>)
    requires Configured(p, contents)
    ensures r.Ok? ==> p.fileExtension == "csv" || p.fileExtension == "json"
    ensures p.fileExtension == "csv" && r.Ok? ==> |r.value| == |DataRecords(p, contents.rows)|
    ensures p.fileExtension != "csv" && p.fileExtension != "json" ==> r == Err(UnsupportedFileType)
  {
    if p.fileExtension == "csv" then CsvToIssues(p, contents.rows)
    else if p.fileExtension == "json" then JsonFileToIssues(p, contents.json)
    else Err(UnsupportedFileType)
  }

  /** The parser as `get_issues` leaves it: the CSV path stores the positions
      it resolved by name; the JSON path only reads the settings. */
  function ParserAfter(p: FileParser, contents: FileContents): FileParser
    requires Configured(p, contents)
  {
    if p.fileExtension == "csv" then StoreResolved(p, contents.rows) else p
  }

  /** Calling `get_issues` again on the same contents gives the same result,
      and the parser is not changed a second time. */
  lemma RepeatedGetIssues(p: FileParser, contents: FileContents)
    requires Configured(p, contents)
    ensures var q := ParserAfter(p, contents);
      && Configured(q, contents)
      && GetIssues(q, contents) == GetIssues(p, contents)
      && ParserAfter(q, contents) == q
  {
    if p.fileExtension == "csv" {
      StoredParserRepeats(p, contents.rows);
    }
  }

  /** Dispatch on the extension the parser was built with, in any case:
      `csv` reads rows, `json` reads a document, anything else is refused
      without looking at the contents. */
  lemma Dispatch(extension: string, p: FileParser, contents: FileContents)
    requires p.fileExtension == ToLower(extension) && Configured(p, contents)
    ensures EqualsIgnoreCase(extension, "csv") ==> GetIssues(p, contents) == CsvToIssues(p, contents.rows)
    ensures EqualsIgnoreCase(extension, "json") ==> GetIssues(p, contents) == JsonFileToIssues(p, contents.json)
    ensures !EqualsIgnoreCase(extension, "csv") && !EqualsIgnoreCase(extension, "json") ==>
              GetIssues(p, contents) == Err(UnsupportedFileType)
  {
    assert ToLower("csv") == "csv";
    assert ToLower("json") == "json";
  }

  /** An upper-case extension is dispatched like its lower-case form. */
  lemma UpperCaseExtension(p: FileParser, contents: FileContents)
    requires p.fileExtension == ToLower("CSV") && CsvConfigured(p, contents.rows)
    ensures GetIssues(p, contents) == CsvToIssues(p, contents.rows)
  {
    assert ToLower("CSV") == "csv";
  }

  // Worked examples

  function Parser(titleKey: string, descriptionKey: Option<string>, prefix: Option<string>, combine: bool): FileParser {
    FileParser("csv", Some(','), false, Some(titleKey), None, descriptionKey, None, prefix, combine)
  }

  /** Header names match in any case. */
  lemma HeaderMatchIgnoresCase()
    ensures FindColumn(["Title", "Description"], "title") == Some(0)
  {
    assert EqualsIgnoreCase("Title", "title") by {
      assert ToLower("Title") == "title";
      assert ToLower("title") == "title";
    }
  }

  /** A repeated header name resolves to its first occurrence. */
  lemma FirstHeaderMatchWins()
    ensures FindColumn(["Title", "Title"], "title") == Some(0)
  {
    assert ToLower("Title") == "title";
    assert ToLower("title") == "title";
  }

  /** A header naming both columns and one record give one issue. */
  lemma CsvByNames()
    ensures CsvToIssues(Parser("title", Some("description"), None, false),
                        [["title", "description"], ["Fix bug", "NPE on login"]])
            == Ok([IssueFromFile("Fix bug", Some("NPE on login"))])
  {
    var p := Parser("title", Some("description"), None, false);
    var rows := [["title", "description"], ["Fix bug", "NPE on login"]];
    assert FindColumn(rows[0], "title") == Some(0);
    assert !EqualsIgnoreCase("title", "description");
    assert FindColumn(rows[0], "description") == Some(1);
    assert ResolveLayout(p, rows) == Ok(Layout(0, Some(1), rows[0]));
    assert DataRecords(p, rows) == [rows[1]];
    CsvOutcome(p, rows);
    CsvIssueFields(p, rows, 0);
    var r := CsvToIssues(p, rows);
    assert r.Ok? && |r.value| == 1;
    assert r.value[0] == IssueFromFile("Fix bug", Some("NPE on login"));
    assert r.value == [IssueFromFile("Fix bug", Some("NPE on login"))];
  }

  /** Combine mode writes every other column as `"<name>: <value>"` followed
      by a blank line, the last one included. */
  lemma CsvCombined()
    ensures CsvToIssues(Parser("title", None, None, true),
                        [["id", "title", "owner"], ["7", "Crash", "alice"]])
            == Ok([IssueFromFile("Crash", Some("id: 7\n\nowner: alice\n\n"))])
  {
    var p := Parser("title", None, None, true);
    var rows := [["id", "title", "owner"], ["7", "Crash", "alice"]];
    assert FindColumn(rows[0], "title") == Some(1) by {
      assert ToLower("id") == "id";
      assert ToLower("title") == "title";
    }
    assert ResolveLayout(p, rows) == Ok(Layout(1, None, rows[0]));
    assert DataRecords(p, rows) == [rows[1]];
    CsvOutcome(p, rows);
    CsvIssueFields(p, rows, 0);
    CombinedExample();
    var r := CsvToIssues(p, rows);
    assert r.value == [IssueFromFile("Crash", Some("id: 7\n\nowner: alice\n\n"))];
  }

  /** Without a header, combine mode labels each other column `Column <i>`,
      counting from zero, and the title column is chosen by index. */
  lemma CsvCombinedNoHeader()
    ensures CsvToIssues(FileParser("csv", Some(','), true, None, Some(1), None, None, None, true),
                        [["7", "Crash", "alice"]])
            == Ok([IssueFromFile("Crash", Some("Column 0: 7\n\nColumn 2: alice\n\n"))])
  {
    var p := FileParser("csv", Some(','), true, None, Some(1), None, None, None, true);
    var rows := [["7", "Crash", "alice"]];
    assert ResolveLayout(p, rows) == Ok(Layout(1, None, ColumnLabels(p, rows)));
    assert DataRecords(p, rows) == rows;
    CsvOutcome(p, rows);
    CsvIssueFields(p, rows, 0);
    CombinedDescriptionNoHeader(p, rows, rows[0], 1);
    NumberedSkipsMiddle(rows[0]);
    var description := "Column 0: " + rows[0][0] + "\n\n" + ("Column 2: " + rows[0][2] + "\n\n");
    NoHeaderExampleText();
    var r := CsvToIssues(p, rows);
    assert r.Ok? && |r.value| == 1;
    assert r.value[0] == IssueFromFile("Crash", Some(description));
    assert r.value == [IssueFromFile("Crash", Some(description))];
  }

  /** The two header-less fragments of that record, joined. */
  lemma NoHeaderExampleText()
    ensures "Column 0: " + "7" + "\n\n" + ("Column 2: " + "alice" + "\n\n") == "Column 0: 7\n\nColumn 2: alice\n\n"
  {
    assert "Column 0: " + "7" + "\n\n" == "Column 0: 7\n\n";
    assert "Column 2: " + "alice" + "\n\n" == "Column 2: alice\n\n";
  }

  /** A three-column record whose title is the middle column is described,
      with numbered labels, by the fragments of columns 0 and 2. */
  lemma NumberedSkipsMiddle(record: Row)
    requires |record| == 3
    ensures Concat(seq(|record| - 1, k requires 0 <= k < |record| - 1 =>
              "Column " + Decimal(SkipColumn(k, 1)) + ": " + record[SkipColumn(k, 1)] + "\n\n")) ==
            "Column 0: " + record[0] + "\n\n" + ("Column 2: " + record[2] + "\n\n")
  {
    var fragments := seq(|record| - 1, k requires 0 <= k < |record| - 1 =>
      "Column " + Decimal(SkipColumn(k, 1)) + ": " + record[SkipColumn(k, 1)] + "\n\n");
    assert fragments[0] == "Column 0: " + record[0] + "\n\n" by {
      assert Decimal(0) == "0";
    }
    assert fragments[1] == "Column 2: " + record[2] + "\n\n" by {
      assert Decimal(2) == "2";
    }
    assert fragments == [fragments[0], fragments[1]];
    ConcatPair(fragments[0], fragments[1]);
  }

  lemma CombinedExample()
    ensures CombinedDescription(["id", "title", "owner"], ["7", "Crash", "alice"], 1) == "id: 7\n\nowner: alice\n\n"
  {
    CombinedSkipsMiddle("id", "title", "owner", "7", "Crash", "alice");
    ExampleFragments();
  }

  /** With three columns and the title in the middle, the description is
      the first column's fragment followed by the last one's. */
  lemma CombinedSkipsMiddle(a: string, t: string, b: string, x: string, y: string, z: string)
    ensures CombinedDescription([a, t, b], [x, y, z], 1) == Fragment(a, x) + Fragment(b, z)
  {
    var labels, record := [a, t, b], [x, y, z];
    var columns := RemainingColumns(labels, record, 1, 3);
    assert RemainingColumns(labels, record, 1, 1) == [(a, x)];
    assert RemainingColumns(labels, record, 1, 2) == [(a, x)];
    assert columns == [(a, x), (b, z)];
    var pieces := seq(|columns|, k requires 0 <= k < |columns| => Fragment(columns[k].0, columns[k].1));
    assert pieces == [Fragment(a, x), Fragment(b, z)];
    ConcatPair(Fragment(a, x), Fragment(b, z));
  }

  /** The two fragments of that record. */
  lemma ExampleFragments()
    ensures Fragment("id", "7") == "id: 7\n\n"
    ensures Fragment("owner", "alice") == "owner: alice\n\n"
  {
    TrimNoWhitespace("id");
    TrimNoWhitespace("owner");
  }

  /** Joining two parts puts the first before the second. */
  lemma ConcatPair(a: string, b: string)
    ensures Concat([a, b]) == a + b
  {
    assert [a] + [b] == [a, b];
    ConcatAppend([a], [b]);
    ConcatSingleton(a);
    ConcatSingleton(b);
  }

  /** A position stored by one call outlives a change of header: after a
      file with header `id,title`, a file with header `a,b` still takes its
      title from column 1, where a fresh parser finds no `title` column. */
  lemma StoredIndexOutlivesHeader()
    ensures var p := Parser("title", None, None, false);
      var q := StoreResolved(p, [["id", "title"], ["1", "Crash"]]);
      && q.titleColumnIndex == Some(1)
      && CsvToIssues(p, [["a", "b"], ["2", "Hang"]]) == Err(ColumnNotFound("title"))
      && CsvToIssues(q, [["a", "b"], ["2", "Hang"]]) == Ok([IssueFromFile("Hang", None)])
  {
    var p := Parser("title", None, None, false);
    var first, second := [["id", "title"], ["1", "Crash"]], [["a", "b"], ["2", "Hang"]];
    assert FindColumn(first[0], "title") == Some(1) by {
      assert ToLower("id") == "id";
      assert ToLower("title") == "title";
    }
    assert FindColumn(second[0], "title") == None by {
      assert |ToLower("a")| == 1 && |ToLower("b")| == 1 && |ToLower("title")| == 5;
    }
    var q := StoreResolved(p, first);
    assert q.titleColumnIndex == Some(1);
    assert ResolveLayout(p, second) == Err(ColumnNotFound("title"));
    assert ResolveLayout(q, second) == Ok(Layout(1, None, second[0]));
    assert DataRecords(q, second) == [second[1]];
    CsvOutcome(q, second);
    CsvIssueFields(q, second, 0);
    var r := CsvToIssues(q, second);
    assert r.Ok? && |r.value| == 1;
    assert r.value[0] == IssueFromFile("Hang", None);
    assert r.value == [IssueFromFile("Hang", None)];
  }

  /** The prefix and the raw title are separated by a single space. */
  lemma CsvPrefixed()
    ensures CsvToIssues(Parser("title", None, Some("TODO:"), false), [["title"], ["Fix bug"]])
            == Ok([IssueFromFile("TODO: Fix bug", None)])
  {
    var p := Parser("title", None, Some("TODO:"), false);
    var rows := [["title"], ["Fix bug"]];
    assert FindColumn(rows[0], "title") == Some(0);
    assert ResolveLayout(p, rows) == Ok(Layout(0, None, rows[0]));
    assert DataRecords(p, rows) == [rows[1]];
    CsvOutcome(p, rows);
    CsvIssueFields(p, rows, 0);
    var r := CsvToIssues(p, rows);
    assert WithPrefix(Some("TODO:"), "Fix bug") == "TODO: Fix bug";
    assert r.Ok? && |r.value| == 1;
    assert r.value[0] == IssueFromFile("TODO: Fix bug", None);
    assert r.value == [IssueFromFile("TODO: Fix bug", None)];
  }

  /** A short record aborts the whole extraction: no issue comes back, not
      even those of the records before it. */
  lemma CsvShortRecord()
    ensures CsvToIssues(Parser("title", Some("description"), None, false),
                        [["title", "description"], ["A", "a"], ["Fix bug"]])
            == Err(UnreadableRecord)
  {
    var p := Parser("title", Some("description"), None, false);
    var rows := [["title", "description"], ["A", "a"], ["Fix bug"]];
    assert FindColumn(rows[0], "title") == Some(0);
    assert !EqualsIgnoreCase("title", "description");
    assert FindColumn(rows[0], "description") == Some(1);
    assert ResolveLayout(p, rows) == Ok(Layout(0, Some(1), rows[0]));
    assert DataRecords(p, rows) == rows[1..];
    CsvOutcome(p, rows);
    assert |DataRecords(p, rows)[1]| != Width(rows);
  }

  /** An index beyond the header is refused before any record is read, even
      one the reader would reject. */
  lemma CsvIndexOutOfBounds()
    ensures CsvToIssues(FileParser("csv", Some(','), false, None, Some(2), None, None, None, false),
                        [["title", "description"], ["short"]])
            == Err(TitleOutOfBounds)
  {
  }

  /** A single object gives one issue; an array of objects gives one issue
      per object, in order. */
  lemma JsonObjects()
    ensures var p := Parser("title", Some("description"), None, false);
      var obj := JObject([("description", JString("B")), ("title", JString("A"))]);
      && JsonToIssues(p, obj) == Ok([IssueFromFile("A", Some("B"))])
      && JsonToIssues(p, JArray([obj, obj])) == Ok([IssueFromFile("A", Some("B")), IssueFromFile("A", Some("B"))])
  {
    var p := Parser("title", Some("description"), None, false);
    var entries := [("description", JString("B")), ("title", JString("A"))];
    assert ToLower("title") == "title";
    assert ToLower("description") == "description";
    assert IsDescriptionKey(p, "description");
    assert IsTitleKey(p, "title");
    assert entries[..1][..0] == [];
    assert ScanEntries(p, entries[..1]) == Ok(Scan("", ["B"]));
    assert ScanEntries(p, entries) == Ok(Scan("A", ["B"]));
    ConcatSingleton("B");
    var issue := IssueFromFile("A", Some("B"));
    assert ObjectToIssue(p, entries) == Ok(issue);
    var obj := JObject(entries);
    var r := JsonToIssues(p, JArray([obj, obj]));
    assert r.Ok? && |r.value| == 2;
    assert r.value == [issue, issue];
  }
}

=== FILE: issues.dfy ===
/** The record every input file is turned into, the parser's configuration,
    and the two formatting rules both input formats share. */
module Issues {
  import opened Wrappers
  import opened Text

  /** One issue read from a file: a title and, maybe, a description. */
  datatype IssueFromFile = IssueFromFile(title: string, description: Option<string>)

  /** The `Display` rendering used when listing issues; an absent description
      prints as the empty string. */
  function Display(issue: IssueFromFile): (r: string)
    ensures |r| == |issue.title| + |issue.description.GetOr("")| + 26
    ensures r[..8] == "Title: '" && r[|r| - 1..] == "'"
    ensures r[8..8 + |issue.title|] == issue.title
  {
    "Title: '" + issue.title + "', Description: '" + issue.description.GetOr("") + "'"
  }

  /** The listing cannot tell a missing description from an empty one ... */
  lemma DisplayHidesEmptyDescription(title: string)
    ensures Display(IssueFromFile(title, None)) == Display(IssueFromFile(title, Some("")))
  {
  }

  /** ... but for a fixed title it tells every other pair of descriptions apart. */
  lemma DisplayDistinguishesDescriptions(title: string, d1: Option<string>, d2: Option<string>)
    requires Display(IssueFromFile(title, d1)) == Display(IssueFromFile(title, d2))
    ensures d1.GetOr("") == d2.GetOr("")
  {
    var r := Display(IssueFromFile(title, d1));
    var n := |title| + 25;
    assert d1.GetOr("") == r[n..|r| - 1];
    assert d2.GetOr("") == r[n..|r| - 1];
  }

  /** The parser's settings as `FileParser::new` stores them. `fileExtension`
      is already lower-cased. Indices are `usize` in the source; they are only
      ever compared, never computed with, so `nat` loses nothing. */
  datatype FileParser = FileParser(
    fileExtension: string,
    separator: Option<char>,
    noHeader: bool,
    titleKey: Option<string>,
    titleColumnIndex: Option<nat>,
    descriptionKey: Option<string>,
    descriptionColumnIndex: Option<nat>,
    prependTitle: Option<string>,
    combineRemaining: bool)

  /** `FileParser::new`: keeps every setting and lower-cases the file's
      extension, so the stored extension is already in lower case. */
  function NewFileParser(
    extension: string,
    separator: Option<char>,
    noHeader: bool,
    titleKey: Option<string>,
    titleColumnIndex: Option<nat>,
    descriptionKey: Option<string>,
    descriptionColumnIndex: Option<nat>,
    prependTitle: Option<string>,
    combineRemaining: bool): (p: FileParser)
    ensures ToLower(p.fileExtension) == p.fileExtension
    ensures EqualsIgnoreCase(p.fileExtension, extension)
    ensures p.separator == separator && p.noHeader == noHeader
    ensures p.titleKey == titleKey && p.titleColumnIndex == titleColumnIndex
    ensures p.descriptionKey == descriptionKey && p.descriptionColumnIndex == descriptionColumnIndex
    ensures p.prependTitle == prependTitle && p.combineRemaining == combineRemaining
  {
    ToLowerIdempotent(extension);
    FileParser(ToLower(extension), separator, noHeader, titleKey, titleColumnIndex,
               descriptionKey, descriptionColumnIndex, prependTitle, combineRemaining)
  }

  /** The title as stored: `"<prefix> <title>"` when a prefix is configured,
      the raw title otherwise. */
  function WithPrefix(prefix: Option<string>, title: string): string {
    match prefix
    case Some(p) => p + " " + title
    case None => title
  }

  /** The prefix, a single space and the raw title, in that order; without a
      prefix the title is kept verbatim. */
  lemma WithPrefixShape(prefix: Option<string>, title: string)
    ensures prefix.None? ==> WithPrefix(prefix, title) == title
    ensures prefix.Some? ==> var r := WithPrefix(prefix, title);
      && |r| == |prefix.value| + 1 + |title|
      && r[..|prefix.value|] == prefix.value
      && r[|prefix.value|] == ' '
      && r[|prefix.value| + 1..] == title
  {
  }

  /** One `"<label>: <value>"` piece of a combined description, the label
      trimmed and the piece closed by a blank line. */
  function Fragment(name: string, value: string): string {
    Trim(name) + ": " + value + "\n\n"
  }

  /** A fragment reads back as the trimmed name, `": "`, the value verbatim
      and a closing blank line. */
  lemma FragmentShape(name: string, value: string)
    ensures var r := Fragment(name, value);
      && |r| == |Trim(name)| + |value| + 4
      && r[..|Trim(name)|] == Trim(name)
      && r[|Trim(name)|..|Trim(name)| + 2] == ": "
      && r[|Trim(name)| + 2..|r| - 2] == value
      && r[|r| - 2..] == "\n\n"
  {
  }
}

=== FILE: json_issues.dfy ===
/** The JSON path of `FileParser` (`json_to_issues` and
    `serde_object_to_issue`).

    A document is a closed tree of values. An object is the sequence of its
    (key, value) entries in the order the parser iterates them; a number is
    kept as the text its `to_string` produces. */
module JsonIssues {
  import opened Wrappers
  import opened Text
  import opened Issues

  datatype Json =
    | JString(s: string)
    | JNumber(text: string)
    | JBool(b: bool)
    | JNull
    | JArray(items: seq<Json>)
    | JObject(entries: seq<(string, Json)>)

  type Entries = seq<(string, Json)>

  const NotParsable := "Json data is not of a format that can be parsed"
  const NestedValue := "Title is not a string"

  predicate IsNested(v: Json) {
    v.JArray? || v.JObject?
  }

  /** The text an entry's value contributes; nested arrays and objects have
      none. */
  function Stringify(v: Json): (r: Option<string>)
    ensures r.None? <==> IsNested(v)
    ensures v.JString? ==> r == Some(v.s)
    ensures v.JBool? ==> r == Some(if v.b then "true" else "false")
    ensures v.JNumber? ==> r == Some(v.text)
    ensures v.JNull? ==> r == Some("null")
  {
    match v
    case JString(s) => Some(s)
    case JBool(b) => Some(if b then "true" else "false")
    case JNumber(text) => Some(text)
    case JNull => Some("null")
    case _ => None
  }

  /** The key names the title, in any case. */
  predicate IsTitleKey(p: FileParser, key: string)
    requires p.titleKey.Some?
  {
    EqualsIgnoreCase(key, p.titleKey.value)
  }

  /** The key names the description, in any case, and is not the title's. */
  predicate IsDescriptionKey(p: FileParser, key: string)
    requires p.titleKey.Some?
  {
    && !IsTitleKey(p, key)
    && p.descriptionKey.Some?
    && EqualsIgnoreCase(key, p.descriptionKey.value)
  }

  /** The loop state of `serde_object_to_issue`: the title so far and the
      description pieces so far. */
  datatype Scan = Scan(title: string, pieces: seq<string>)

  /** One entry taken into the state: a title key replaces the title; in
      combine mode any other key adds a fragment; otherwise a description key
      replaces the pieces with its value alone. */
  function Absorb(p: FileParser, s: Scan, key: string, val: string): Scan
    requires p.titleKey.Some?
  {
    if IsTitleKey(p, key) then s.(title := val)
    else if p.combineRemaining then s.(pieces := s.pieces + [Fragment(key, val)])
    else if IsDescriptionKey(p, key) then s.(pieces := [val])
    else s
  }

  /** The state after the given entries, or the error of the first nested
      value among them. */
  function ScanEntries(p: FileParser, entries: Entries): Result<Scan>
    requires p.titleKey.Some?
    decreases |entries|
  {
    if |entries| == 0 then Ok(Scan("", []))
    else
      var s :- ScanEntries(p, entries[..|entries| - 1]);
      var (key, value) := entries[|entries| - 1];
      match Stringify(value)
      case None => Err(NestedValue)
      case Some(val) => Ok(Absorb(p, s, key, val))
  }

  /** `serde_object_to_issue`: the title and the joined pieces; no pieces
      means no description. The title prefix is not applied on this path. */
  function ObjectToIssue(p: FileParser, entries: Entries): (r: Result<IssueFromFile>)
    requires p.titleKey.Some?
    ensures r.Ok? <==> forall i :: 0 <= i < |entries| ==> !IsNested(entries[i].1)
    ensures r.Err? ==> r.error == NestedValue
  {
    ObjectFailsOnNested(p, entries);
    var s :- ScanEntries(p, entries);
    Ok(IssueFromFile(s.title, if |s.pieces| == 0 then None else Some(Concat(s.pieces))))
  }

  /** One element of a root array: it must be an object. */
  function ItemToIssue(p: FileParser, item: Json): Result<IssueFromFile>
    requires p.titleKey.Some?
  {
    match item
    case JObject(entries) => ObjectToIssue(p, entries)
    case _ => Err(NotParsable)
  }

  /** The document leads the loop to convert an object: the root is one, or
      it is an array whose first element is one. */
  predicate ReachesObject(root: Json) {
    root.JObject? || (root.JArray? && |root.items| > 0 && root.items[0].JObject?)
  }

  /** The documents on which this path does not panic: the title key is
      unwrapped only when an object is converted. */
  predicate JsonConfigured(p: FileParser, root: Json) {
    p.titleKey.Some? || !ReachesObject(root)
  }

  /** `json_to_issues` on a parsed document: a root array yields one issue
      per element, in order, as long as every element is an object that
      converts; a root object yields exactly one issue; any other root is
      rejected. Without a title key no object is ever converted, so an array
      gives no issue when it is empty and is rejected otherwise. */
  function JsonToIssues(p: FileParser, root: Json): (r: Result<seq<IssueFromFile>>)
    requires JsonConfigured(p, root)
    ensures root.JArray? && p.titleKey.Some? ==>
      (r.Ok? <==> forall i :: 0 <= i < |root.items| ==>
                    root.items[i].JObject? && ObjectToIssue(p, root.items[i].entries).Ok?)
    ensures root.JArray? && p.titleKey.Some? && r.Ok? ==>
      |r.value| == |root.items| &&
      forall i :: 0 <= i < |root.items| ==> r.value[i] == ObjectToIssue(p, root.items[i].entries).value
    ensures root.JArray? && p.titleKey.None? ==>
      r == if |root.items| == 0 then Ok([]) else Err(NotParsable)
    ensures root.JObject? ==>
      r == (match ObjectToIssue(p, root.entries)
            case Ok(issue) => Ok([issue])
            case Err(e) => Err(e))
    ensures !root.JArray? && !root.JObject? ==> r == Err(NotParsable)
  {
    match root
    case JArray(items) =>
      if p.titleKey.None? then
        // The first element is not an object, so the loop stops at it.
        if |items| == 0 then Ok([]) else Err(NotParsable)
      else
        var r := MapAll(items, item => ItemToIssue(p, item));
        assert r.Ok? ==> forall i :: 0 <= i < |items| ==> ItemToIssue(p, items[i]).Ok?;
        r
    case JObject(entries) =>
      var issue :- ObjectToIssue(p, entries);
      Ok([issue])
    case _ => Err(NotParsable)
  }

  /** The first element of a root array that is not an object, when every
      element before it converts, makes the whole document unparsable. */
  lemma NonObjectItemRejected(p: FileParser, items: seq<Json>, i: nat)
    requires p.titleKey.Some?
    requires i < |items| && !items[i].JObject?
    requires forall j :: 0 <= j < i ==> ItemToIssue(p, items[j]).Ok?
    ensures JsonToIssues(p, JArray(items)) == Err(NotParsable)
  {
    var f := item => ItemToIssue(p, item);
    var r := MapAll(items, f);
    assert !f(items[i]).Ok?;
    var k :| FirstFailure(items, f, k) && r.error == f(items[k]).error;
    assert k == i;
  }

  /** Converting an object fails exactly when one of its values is nested,
      whatever its key; the message is always the same. */
  lemma {:induction false} ObjectFailsOnNested(p: FileParser, entries: Entries)
    requires p.titleKey.Some?
    ensures ScanEntries(p, entries).Err? <==> exists i :: 0 <= i < |entries| && IsNested(entries[i].1)
    ensures ScanEntries(p, entries).Err? ==> ScanEntries(p, entries).error == NestedValue
    decreases |entries|
  {
    if |entries| > 0 {
      var n := |entries| - 1;
      ObjectFailsOnNested(p, entries[..n]);
      assert forall i :: 0 <= i < n ==> entries[..n][i] == entries[i];
    }
  }

  /** The text of a value that is known not to be nested. */
  function ValueText(v: Json): string
    requires !IsNested(v)
  {
    Stringify(v).value
  }

  /** The last entry is taken in after all the others. */
  lemma ScanLast(p: FileParser, entries: Entries)
    requires p.titleKey.Some?
    requires |entries| > 0 && ScanEntries(p, entries).Ok?
    ensures var n := |entries| - 1;
      && ScanEntries(p, entries[..n]).Ok?
      && !IsNested(entries[n].1)
      && ScanEntries(p, entries).value
           == Absorb(p, ScanEntries(p, entries[..n]).value, entries[n].0, ValueText(entries[n].1))
  {
  }

  /** The title after the last entry: that entry's text if its key is the
      title key, else the title before it. */
  lemma TitleAfterLast(p: FileParser, entries: Entries)
    requires p.titleKey.Some?
    requires |entries| > 0 && ScanEntries(p, entries).Ok?
    ensures var n := |entries| - 1;
      && ScanEntries(p, entries[..n]).Ok?
      && !IsNested(entries[n].1)
      && ScanEntries(p, entries).value.title ==
           if IsTitleKey(p, entries[n].0) then ValueText(entries[n].1) else ScanEntries(p, entries[..n]).value.title
  {
    ScanLast(p, entries);
  }

  /** Outside combine mode, the pieces after the last entry: that entry's
      text alone if its key is the description key, else the pieces before it. */
  lemma PiecesAfterLast(p: FileParser, entries: Entries)
    requires p.titleKey.Some? && !p.combineRemaining
    requires |entries| > 0 && ScanEntries(p, entries).Ok?
    ensures var n := |entries| - 1;
      && ScanEntries(p, entries[..n]).Ok?
      && !IsNested(entries[n].1)
      && ScanEntries(p, entries).value.pieces ==
           if IsDescriptionKey(p, entries[n].0) then [ValueText(entries[n].1)] else ScanEntries(p, entries[..n]).value.pieces
  {
    ScanLast(p, entries);
  }

  /** `i` is the last entry whose key satisfies the title match. */
  predicate IsLastTitleEntry(p: FileParser, entries: Entries, i: int)
    requires p.titleKey.Some?
  {
    && 0 <= i < |entries|
    && IsTitleKey(p, entries[i].0)
    && forall j :: i < j < |entries| ==> !IsTitleKey(p, entries[j].0)
  }

  /** The title is the value of the last entry whose key matches the title
      key, or empty when no key matches. */
  lemma {:induction false} TitleIsLastMatch(p: FileParser, entries: Entries)
    requires p.titleKey.Some?
    requires ScanEntries(p, entries).Ok?
    ensures (forall i :: 0 <= i < |entries| ==> !IsTitleKey(p, entries[i].0)) ==>
              ScanEntries(p, entries).value.title == ""
    ensures forall i :: IsLastTitleEntry(p, entries, i) ==>
              !IsNested(entries[i].1) && ScanEntries(p, entries).value.title == ValueText(entries[i].1)
    decreases |entries|
  {
    if |entries| > 0 {
      var n := |entries| - 1;
      var front := entries[..n];
      TitleAfterLast(p, entries);
      TitleIsLastMatch(p, front);
      forall i | IsLastTitleEntry(p, entries, i)
        ensures !IsNested(entries[i].1) && ScanEntries(p, entries).value.title == ValueText(entries[i].1)
      {
        if i < n {
          assert IsLastTitleEntry(p, front, i) by {
            assert forall j :: i <= j < n ==> front[j] == entries[j];
          }
        }
      }
      assert (forall i :: 0 <= i < |entries| ==> !IsTitleKey(p, entries[i].0)) ==>
             (forall i :: 0 <= i < n ==> !IsTitleKey(p, front[i].0)) by {
        assert forall i :: 0 <= i < n ==> front[i] == entries[i];
      }
    }
  }

  /** The entries whose keys do not match the title key. The body is the
      reference filter: it keeps the object's order and each entry once, and
      the lemmas below that say "in entry order" rely on it. */
  function NonTitleEntries(p: FileParser, entries: Entries): (r: Entries)
    requires p.titleKey.Some?
    ensures |r| <= |entries|
    ensures forall k :: 0 <= k < |r| ==> r[k] in entries && !IsTitleKey(p, r[k].0)
    ensures forall i :: 0 <= i < |entries| && !IsTitleKey(p, entries[i].0) ==> entries[i] in r
    ensures |r| == 0 <==> forall i :: 0 <= i < |entries| ==> IsTitleKey(p, entries[i].0)
    decreases |entries|
  {
    if |entries| == 0 then []
    else
      var n := |entries| - 1;
      var front := NonTitleEntries(p, entries[..n]);
      assert forall i :: 0 <= i < n ==> entries[..n][i] == entries[i];
      if IsTitleKey(p, entries[n].0) then front else front + [entries[n]]
  }

  /** In combine mode the pieces are one fragment per non-title entry, in
      entry order. */
  lemma {:induction false} CombinePieces(p: FileParser, entries: Entries)
    requires p.titleKey.Some? && p.combineRemaining
    requires ScanEntries(p, entries).Ok?
    ensures var pieces, others := ScanEntries(p, entries).value.pieces, NonTitleEntries(p, entries);
      && |pieces| == |others|
      && forall k :: 0 <= k < |others| ==>
           !IsNested(others[k].1) && pieces[k] == Fragment(others[k].0, ValueText(others[k].1))
    decreases |entries|
  {
    if |entries| > 0 {
      var n := |entries| - 1;
      var front := entries[..n];
      CombinedAfterLast(p, entries);
      CombinePieces(p, front);
      if !IsTitleKey(p, entries[n].0) {
        AppendFragment(ScanEntries(p, front).value.pieces, NonTitleEntries(p, front), entries[n]);
      }
    }
  }

  /** Extending matching piece and entry lists by one entry and its fragment
      keeps them matching. */
  lemma AppendFragment(pieces: seq<string>, others: Entries, last: (string, Json))
    requires |pieces| == |others| && !IsNested(last.1)
    requires forall k :: 0 <= k < |others| ==>
      !IsNested(others[k].1) && pieces[k] == Fragment(others[k].0, ValueText(others[k].1))
    ensures var pieces', others' := pieces + [Fragment(last.0, ValueText(last.1))], others + [last];
      && |pieces'| == |others'|
      && forall k :: 0 <= k < |others'| ==>
           !IsNested(others'[k].1) && pieces'[k] == Fragment(others'[k].0, ValueText(others'[k].1))
  {
  }

  /** In combine mode, the pieces after the last entry: those before it, plus
      that entry's fragment unless its key is the title key. */
  lemma CombinedAfterLast(p: FileParser, entries: Entries)
    requires p.titleKey.Some? && p.combineRemaining
    requires |entries| > 0 && ScanEntries(p, entries).Ok?
    ensures var n := |entries| - 1;
      && ScanEntries(p, entries[..n]).Ok?
      && !IsNested(entries[n].1)
      && ScanEntries(p, entries).value.pieces ==
           (if IsTitleKey(p, entries[n].0) then ScanEntries(p, entries[..n]).value.pieces
            else ScanEntries(p, entries[..n]).value.pieces + [Fragment(entries[n].0, ValueText(entries[n].1))])
      && NonTitleEntries(p, entries) ==
           (if IsTitleKey(p, entries[n].0) then NonTitleEntries(p, entries[..n])
            else NonTitleEntries(p, entries[..n]) + [entries[n]])
  {
    ScanLast(p, entries);
  }

  /** One fragment per entry, in entry order. */
  function Fragments(entries: Entries): seq<string>
    requires forall k :: 0 <= k < |entries| ==> !IsNested(entries[k].1)
  {
    seq(|entries|, k requires 0 <= k < |entries| => Fragment(entries[k].0, ValueText(entries[k].1)))
  }

  /** In combine mode the pieces are exactly the fragments of the non-title
      entries. */
  lemma PiecesAreFragments(p: FileParser, entries: Entries)
    requires p.titleKey.Some? && p.combineRemaining
    requires ScanEntries(p, entries).Ok?
    ensures var others := NonTitleEntries(p, entries);
      && (forall k :: 0 <= k < |others| ==> !IsNested(others[k].1))
      && ScanEntries(p, entries).value.pieces == Fragments(others)
  {
    CombinePieces(p, entries);
    var others := NonTitleEntries(p, entries);
    var pieces := ScanEntries(p, entries).value.pieces;
    assert forall k :: 0 <= k < |pieces| ==> Fragments(others)[k] == pieces[k];
  }

  /** Hence, in combine mode, the description is absent exactly when every
      key is a title key, and otherwise joins the fragments of all others. */
  lemma CombineDescription(p: FileParser, entries: Entries)
    requires p.titleKey.Some? && p.combineRemaining
    requires ObjectToIssue(p, entries).Ok?
    ensures var others := NonTitleEntries(p, entries);
      && (forall k :: 0 <= k < |others| ==> !IsNested(others[k].1))
      && (ObjectToIssue(p, entries).value.description ==
            if |others| == 0 then None else Some(Concat(Fragments(others))))
  {
    PiecesAreFragments(p, entries);
  }

  /** `i` is the last entry whose key matches the description key. */
  predicate IsLastDescriptionEntry(p: FileParser, entries: Entries, i: int)
    requires p.titleKey.Some?
  {
    && 0 <= i < |entries|
    && IsDescriptionKey(p, entries[i].0)
    && forall j :: i < j < |entries| ==> !IsDescriptionKey(p, entries[j].0)
  }

  /** Outside combine mode the description is the value of the last entry
      matching the description key, and absent when none matches. */
  lemma {:induction false} DescriptionIsLastMatch(p: FileParser, entries: Entries)
    requires p.titleKey.Some? && !p.combineRemaining
    requires ScanEntries(p, entries).Ok?
    ensures (forall i :: 0 <= i < |entries| ==> !IsDescriptionKey(p, entries[i].0)) ==>
              ScanEntries(p, entries).value.pieces == []
    ensures forall i :: IsLastDescriptionEntry(p, entries, i) ==>
              !IsNested(entries[i].1) && ScanEntries(p, entries).value.pieces == [ValueText(entries[i].1)]
    decreases |entries|
  {
    if |entries| > 0 {
      var n := |entries| - 1;
      var front := entries[..n];
      PiecesAfterLast(p, entries);
      DescriptionIsLastMatch(p, front);
      forall i | IsLastDescriptionEntry(p, entries, i)
        ensures !IsNested(entries[i].1) && ScanEntries(p, entries).value.pieces == [ValueText(entries[i].1)]
      {
        if i < n {
          assert IsLastDescriptionEntry(p, front, i) by {
            assert forall j :: i <= j < n ==> front[j] == entries[j];
          }
        }
      }
      assert (forall i :: 0 <= i < |entries| ==> !IsDescriptionKey(p, entries[i].0)) ==>
             (forall i :: 0 <= i < n ==> !IsDescriptionKey(p, front[i].0)) by {
        assert forall i :: 0 <= i < n ==> front[i] == entries[i];
      }
    }
  }

  /** The object's issue outside combine mode: `Some` of the last matching
      value, even an empty one, or `None` when no key matches. */
  lemma SingleDescription(p: FileParser, entries: Entries)
    requires p.titleKey.Some? && !p.combineRemaining
    requires ObjectToIssue(p, entries).Ok?
    ensures (forall i :: 0 <= i < |entries| ==> !IsDescriptionKey(p, entries[i].0)) ==>
              ObjectToIssue(p, entries).value.description.None?
    ensures forall i :: IsLastDescriptionEntry(p, entries, i) ==>
              !IsNested(entries[i].1) &&
              ObjectToIssue(p, entries).value.description == Some(ValueText(entries[i].1))
  {
    DescriptionIsLastMatch(p, entries);
    forall i | IsLastDescriptionEntry(p, entries, i)
      ensures !IsNested(entries[i].1)
      ensures ObjectToIssue(p, entries).value.description == Some(ValueText(entries[i].1))
    {
      ConcatSingleton(ValueText(entries[i].1));
    }
  }

  /** The JSON path reads only the title key, the description key and the
      combine flag: the title prefix, the column indices, the header flag and
      the separator change nothing. */
  lemma JsonIgnoresOtherSettings(p: FileParser, q: FileParser, root: Json)
    requires JsonConfigured(p, root) && q.titleKey == p.titleKey
    requires q.descriptionKey == p.descriptionKey && q.combineRemaining == p.combineRemaining
    ensures JsonToIssues(p, root) == JsonToIssues(q, root)
  {
    if p.titleKey.Some? {
      forall entries: Entries ensures ObjectToIssue(p, entries) == ObjectToIssue(q, entries) {
        ScanIgnoresOtherSettings(p, q, entries);
      }
      if root.JArray? {
        MapAllCongruent(root.items, item => ItemToIssue(p, item), item => ItemToIssue(q, item));
      }
    }
  }

  lemma {:induction false} ScanIgnoresOtherSettings(p: FileParser, q: FileParser, entries: Entries)
    requires p.titleKey.Some? && q.titleKey == p.titleKey
    requires q.descriptionKey == p.descriptionKey && q.combineRemaining == p.combineRemaining
    ensures ScanEntries(p, entries) == ScanEntries(q, entries)
    decreases |entries|
  {
    if |entries| > 0 {
      ScanIgnoresOtherSettings(p, q, entries[..|entries| - 1]);
    }
  }
}

=== FILE: text.dfy ===
/** The string operations the parser relies on: case-insensitive comparison,
    whitespace trimming, decimal rendering of integers and joining. */
module Text {

  /** Lower-cases one character. Only the ASCII letters are mapped; see the
      README for what this leaves out of Rust's full Unicode mapping. */
  function LowerChar(c: char): char {
    if 'A' <= c <= 'Z' then (c as int + 32) as char else c
  }

  function ToLower(s: string): (r: string)
    ensures |r| == |s|
    ensures forall i :: 0 <= i < |s| ==> r[i] == LowerChar(s[i])
  {
    seq(|s|, i requires 0 <= i < |s| => LowerChar(s[i]))
  }

  /** Lower-casing a lower-cased string changes nothing. */
  lemma ToLowerIdempotent(s: string)
    ensures ToLower(ToLower(s)) == ToLower(s)
  {
    assert forall i :: 0 <= i < |s| ==> LowerChar(LowerChar(s[i])) == LowerChar(s[i]);
  }

  /** `a.to_lowercase() == b.to_lowercase()`. */
  predicate EqualsIgnoreCase(a: string, b: string) {
    ToLower(a) == ToLower(b)
  }

  /** Rust's `char::is_whitespace`: the characters with the Unicode
      White_Space property, listed by code point. */
  predicate IsWhitespace(c: char) {
    var n := c as int;
    || 0x09 <= n <= 0x0D
    || n == 0x20
    || n == 0x85
    || n == 0xA0
    || n == 0x1680
    || 0x2000 <= n <= 0x200A
    || n == 0x2028
    || n == 0x2029
    || n == 0x202F
    || n == 0x205F
    || n == 0x3000
  }

  /** Number of whitespace characters at the front of `s`. */
  function LeadingWhitespace(s: string): (n: nat)
    ensures n <= |s|
    ensures forall k :: 0 <= k < n ==> IsWhitespace(s[k])
    ensures n < |s| ==> !IsWhitespace(s[n])
    decreases |s|
  {
    if |s| == 0 || !IsWhitespace(s[0]) then 0
    else 1 + LeadingWhitespace(s[1..])
  }

  /** Number of whitespace characters at the back of `s`. */
  function TrailingWhitespace(s: string): (n: nat)
    ensures n <= |s|
    ensures forall k :: |s| - n <= k < |s| ==> IsWhitespace(s[k])
    ensures n < |s| ==> !IsWhitespace(s[|s| - n - 1])
    decreases |s|
  {
    if |s| == 0 || !IsWhitespace(s[|s| - 1]) then 0
    else 1 + TrailingWhitespace(s[..|s| - 1])
  }

  /** Rust's `str::trim`. */
  function Trim(s: string): string {
    var lead := LeadingWhitespace(s);
    if lead == |s| then ""
    else
      var trail := TrailingWhitespace(s);
      assert !IsWhitespace(s[lead]);
      s[lead..|s| - trail]
  }

  /** The trim of `s` is a slice of `s`: what is cut off on either side is
      whitespace, and what is kept neither starts nor ends with whitespace. */
  lemma TrimSpec(s: string)
    ensures LeadingWhitespace(s) + |Trim(s)| <= |s|
    ensures Trim(s) == s[LeadingWhitespace(s)..LeadingWhitespace(s) + |Trim(s)|]
    ensures forall k :: LeadingWhitespace(s) + |Trim(s)| <= k < |s| ==> IsWhitespace(s[k])
    ensures |Trim(s)| > 0 ==> !IsWhitespace(Trim(s)[0]) && !IsWhitespace(Trim(s)[|Trim(s)| - 1])
  {
    TrimSlice(s);
    TrimSuffix(s);
    TrimEnds(s);
  }

  /** The kept slice starts after the leading whitespace and ends where the
      trailing whitespace begins. */
  lemma TrimSlice(s: string)
    ensures LeadingWhitespace(s) + |Trim(s)| <= |s|
    ensures Trim(s) == s[LeadingWhitespace(s)..LeadingWhitespace(s) + |Trim(s)|]
  {
    var lead := LeadingWhitespace(s);
    if lead < |s| {
      var trail := TrailingWhitespace(s);
      assert Trim(s) == s[lead..|s| - trail] && lead + |Trim(s)| == |s| - trail by {
        assert lead < |s| - trail;
      }
    } else {
      assert Trim(s) == "";
    }
  }

  /** Only whitespace follows the kept slice. */
  lemma TrimSuffix(s: string)
    ensures forall k :: LeadingWhitespace(s) + |Trim(s)| <= k < |s| ==> IsWhitespace(s[k])
  {
    var lead := LeadingWhitespace(s);
    if lead < |s| {
      var trail := TrailingWhitespace(s);
      assert lead < |s| - trail;
      assert |Trim(s)| == |s| - trail - lead;
    }
  }

  /** The kept slice neither starts nor ends with whitespace. */
  lemma TrimEnds(s: string)
    ensures |Trim(s)| > 0 ==> !IsWhitespace(Trim(s)[0]) && !IsWhitespace(Trim(s)[|Trim(s)| - 1])
  {
    var lead := LeadingWhitespace(s);
    if lead < |s| {
      var trail := TrailingWhitespace(s);
      assert lead < |s| - trail;
      var r := Trim(s);
      assert r == s[lead..|s| - trail];
      assert r[0] == s[lead];
      assert r[|r| - 1] == s[|s| - trail - 1];
    }
  }

  /** The trim is empty exactly when `s` is all whitespace. */
  lemma TrimEmpty(s: string)
    ensures |Trim(s)| == 0 <==> forall k :: 0 <= k < |s| ==> IsWhitespace(s[k])
  {
    var lead := LeadingWhitespace(s);
    if lead < |s| {
      assert !IsWhitespace(s[lead]);
      TrimSpec(s);
    }
  }

  /** A string without whitespace is its own trim. */
  lemma TrimNoWhitespace(s: string)
    requires forall k :: 0 <= k < |s| ==> !IsWhitespace(s[k])
    ensures Trim(s) == s
  {
    if |s| > 0 {
      assert LeadingWhitespace(s) == 0;
      assert TrailingWhitespace(s) == 0;
    }
  }

  /** A string that neither starts nor ends with whitespace is its own trim,
      whatever lies between. */
  lemma TrimKeepsSolidEnds(s: string)
    requires |s| > 0 && !IsWhitespace(s[0]) && !IsWhitespace(s[|s| - 1])
    ensures Trim(s) == s
  {
    assert LeadingWhitespace(s) == 0;
    assert TrailingWhitespace(s) == 0;
  }

  predicate IsDigit(c: char) {
    '0' <= c <= '9'
  }

  function DigitChar(d: nat): (c: char)
    requires d < 10
    ensures IsDigit(c) && c as int - '0' as int == d
  {
    ('0' as int + d) as char
  }

  /** Rust's `Display` of an unsigned integer: decimal digits, most
      significant first, without leading zeros. */
  function Decimal(n: nat): (r: string)
    ensures 1 <= |r|
    ensures forall i :: 0 <= i < |r| ==> IsDigit(r[i])
    ensures r[0] == '0' ==> n == 0 && r == "0"
    decreases n
  {
    if n < 10 then [DigitChar(n)]
    else Decimal(n / 10) + [DigitChar(n % 10)]
  }

  function DigitValue(c: char): nat
    requires IsDigit(c)
  {
    c as int - '0' as int
  }

  /** The number a string of decimal digits denotes. */
  function DecimalValue(s: string): nat
    requires forall i :: 0 <= i < |s| ==> IsDigit(s[i])
    decreases |s|
  {
    if |s| == 0 then 0
    else 10 * DecimalValue(s[..|s| - 1]) + DigitValue(s[|s| - 1])
  }

  /** Reading back a rendered number gives the number. */
  lemma {:induction false} DecimalRoundTrip(n: nat)
    ensures DecimalValue(Decimal(n)) == n
    decreases n
  {
    if n >= 10 {
      DecimalRoundTrip(n / 10);
      var s := Decimal(n);
      assert s[..|s| - 1] == Decimal(n / 10);
    }
  }

  /** `parts.join("")`: the parts one after another. */
  function Concat(parts: seq<string>): string
    decreases |parts|
  {
    if |parts| == 0 then ""
    else Concat(parts[..|parts| - 1]) + parts[|parts| - 1]
  }

  /** Joining a single part gives that part. */
  lemma ConcatSingleton(part: string)
    ensures Concat([part]) == part
  {
    assert [part][..0] == [];
  }

  /** Joining distributes over sequence concatenation. */
  lemma {:induction false} ConcatAppend(a: seq<string>, b: seq<string>)
    ensures Concat(a + b) == Concat(a) + Concat(b)
    decreases |b|
  {
    if |b| > 0 {
      var n := |b| - 1;
      assert (a + b)[..|a + b| - 1] == a + b[..n];
      ConcatAppend(a, b[..n]);
    } else {
      assert a + b == a;
    }
  }
}

=== FILE: wrappers.dfy ===
/** Option and Result in the shape the Rust code uses them: a `Result` carries
    either a value or an error message, and `:-` propagates the first error. */
module Wrappers {

  datatype Option<+T> = None | Some(value: T) {

    /** The value, or `default` when there is none (Rust's `unwrap_or`). */
    function GetOr(default: T): T {
      match this
      case Some(v) => v
      case None => default
    }
  }

  datatype Result<+T> = Ok(value: T) | Err(error: string) {

    predicate IsFailure() {
      Err?
    }

    function PropagateFailure<U>(): Result<U>
      requires Err?
    {
      Err(error)
    }

    function Extract(): T
      requires Ok?
    {
      value
    }
  }

  /** Applies `f` to every element in order and collects the results, stopping
      at the first error: either every element converts and the output lines
      up with the input, or the error of the first element that fails is
      returned and nothing else. */
  function MapAll<A, B>(xs: seq<A>, f: A -> Result<B>): (r: Result<seq<B>>)
    ensures r.Ok? <==> forall i :: 0 <= i < |xs| ==> f(xs[i]).Ok?
    ensures r.Ok? ==> |r.value| == |xs|
    ensures r.Ok? ==> forall i :: 0 <= i < |xs| ==> r.value[i] == f(xs[i]).value
    ensures r.Err? ==> exists i :: FirstFailure(xs, f, i) && r.error == f(xs[i]).error
    decreases |xs|
  {
    if |xs| == 0 then Ok([])
    else
      match f(xs[0])
      case Err(e) =>
        assert FirstFailure(xs, f, 0);
        Err(e)
      case Ok(first) =>
        match MapAll(xs[1..], f)
        case Err(e) =>
          assert forall i :: FirstFailure(xs[1..], f, i) ==> FirstFailure(xs, f, i + 1);
          Err(e)
        case Ok(rest) => Ok([first] + rest)
  }

  /** `xs[i]` is the first element on which `f` fails. */
  ghost predicate FirstFailure<A, B>(xs: seq<A>, f: A -> Result<B>, i: int) {
    && 0 <= i < |xs|
    && f(xs[i]).Err?
    && forall j :: 0 <= j < i ==> f(xs[j]).Ok?
  }

  /** Two conversions that agree on every element give the same collected result. */
  lemma {:induction false} MapAllCongruent<A, B>(xs: seq<A>, f: A -> Result<B>, g: A -> Result<B>)
    requires forall i :: 0 <= i < |xs| ==> f(xs[i]) == g(xs[i])
    ensures MapAll(xs, f) == MapAll(xs, g)
    decreases |xs|
  {
    if |xs| > 0 {
      MapAllCongruent(xs[1..], f, g);
    }
  }
}
